=== FILE: README.md ===
# Firecrawl JS SDK: client-side job orchestration

This project is a Dafny model of the client-side orchestration in the Firecrawl JavaScript SDK, with proofs about it. It covers two channels, the `smartCrawl` loop and one parser:

- **The pull channel.** `monitorJobStatus` polls a crawl job until a terminal status arrives. It sleeps for the caller's interval, raised to at least 2 seconds, between in-progress polls and then follows the `next` cursors of a completed job. Each later page's `data` is concatenated onto the first page's. The same cursor loop backs the `getAllData` option of `checkCrawlStatus` and `checkBatchScrapeStatus`. `handleError` turns a non-200 response into a `FirecrawlError`.
- **The push channel.** A `CrawlWatcher` installs handlers on a WebSocket. They mirror the job status, buffer documents and dispatch `document`, `done` and `error` events.
- **`smartCrawl`.** This discovery loop maps a site, then repeats one round until something is found, the scrape budget is spent or no candidates remain. A round asks a language model to rank the remaining links, takes the first five ranked URLs and scrapes those of them not scraped before. Each URL is reserved in `scrapedUrls` before it is fetched.
- **`findRelevantUrls` post-processing.** This parses the model's reply: the first text block, the lazily matched `<relevant_urls>` section, then a line-by-line clean-up.

## How the model is built

- **Modules.** Six modules follow the source's structure:
  - `Types`: shared values;
  - `Http`: status bodies and `handleError`;
  - `StatusPoller`;
  - `CrawlWatcher`;
  - `RelevantUrls`;
  - `SmartCrawl`.
- **Network as a trace.** Every `getRequest` consumes the next element of a finite trace of fetch outcomes. If the client would go on after the trace is exhausted, the outcome is `Unfinished`.
- **Time.** Sleeps are recorded as durations, not performed.
- **Language model and scraper as functions.** The model's reply in round `i` is a function of `i` and the candidates offered, which covers every possible sequence of replies. A scrape reply is a function of the URL; no URL is scraped twice, so this loses nothing.
- **Fuel.** The `smartCrawl` loop has no bound of its own, so the model carries `fuel`, a maximum number of rounds. Running out of fuel is the outcome `Running`.
- **Watcher state.** The watcher's mutable fields become an immutable state. Each socket handler becomes a step that returns the new state, the events dispatched in order, and whether the client itself called `close()` on the socket.

## Behaviour of the code worth knowing

- **The watcher does not buffer `document` messages.** They are dispatched but not added to the buffer. A `catchup` of `n` documents followed by one `document` emits `n + 1` events, but the buffer ends with `n` documents. See `CrawlWatcher.CatchupThenDocument`.
- **The watcher's terminal status is not sticky.** A `catchup` that arrives after `done` overwrites "completed".
- **`"pending"` counts as in progress.** It is in the list of statuses after which the poller waits.
- **`checkCrawlStatus` and `checkBatchScrapeStatus` rewrap errors as code 500.** An empty id is rejected with code 400 before their `try`. Every error raised inside the `try` is rethrown with code 500. So, of the functions modelled here, only `monitorJobStatus` passes `handleError`'s status code through to its caller.
- **An empty site map still succeeds.** `!mapResult.links` is false for an empty array. A site map with no links therefore gives `success: true`, no round and no scrape.
- **Only a site-map failure fails `smartCrawl`.** `findRelevantUrls` and `scrapeUrlBatch` catch everything themselves. So the only exception that reaches `smartCrawl`'s `catch` is one thrown by `mapUrl`, and the loop never raises.

## Model

| member | source | states |
|---|---|---|
| Http.DecimalStringRoundTrip | apps/js-sdk/firecrawl/dist/index.cjs:752-757 | the status code printed into an error message reads back as the response's status |
| Http.ErrorText | apps/js-sdk/firecrawl/dist/index.cjs:750 | the reported error text is never empty; it is the server's `error` whenever that is a non-empty string |
| Http.DecimalString | apps/js-sdk/firecrawl/dist/index.cjs:752-757 | the printed status is all digits, one digit exactly below 10, with a leading zero only for 0 itself |
| Http.HandleError | apps/js-sdk/firecrawl/dist/index.cjs:748-761 | the error's code is the response status; for 402, 408, 409 and 500 the message begins "Failed to <action>. Status code: <status>" and ends ". Error: <server text>"; for any other status it begins "Unexpected error occurred while trying to <action>" and ends ". Status code: <status>" |
| StatusPoller.FollowPages | apps/js-sdk/firecrawl/dist/index.cjs:717-721 | a finished pagination ends on a page without a cursor, consumed exactly one fetch per cursor followed, and only ever extends the collected data |
| StatusPoller.PageData | apps/js-sdk/firecrawl/dist/index.cjs:720 | a later page adds its own array; a page without one adds exactly one `undefined`; a page adds nothing only when its array is empty |
| StatusPoller.FollowPagesComplete | apps/js-sdk/firecrawl/dist/index.cjs:715-723 | following a cursor chain requests each cursor once, in order, and yields the first page's data followed by every later page's data in fetch order, with no gap and no repeat |
| StatusPoller.FollowPagesSound | apps/js-sdk/firecrawl/dist/index.cjs:715-723 | conversely, every finished pagination consumed a cursor chain of responses, and its data is exactly that chain's concatenation |
| StatusPoller.Classify | apps/js-sdk/firecrawl/dist/index.cjs:712-740 | a response means wait exactly when it is a 200 with an in-progress status; it completes exactly when it is a 200 "completed" with data; any other response fails, with the response's status through `handleError` when not 200 and with code 500 otherwise |
| StatusPoller.SleepSeconds | apps/js-sdk/firecrawl/dist/index.cjs:728 | the wait is at least 2 seconds and at least the interval, and is one of the two |
| StatusPoller.MonitorJobStatus | apps/js-sdk/firecrawl/dist/index.cjs:706-742 | every sleep lasts the interval raised to 2 seconds, so never less than 2 and never less than the interval; at most one sleep per fetch; a returned result has no cursor left and carries data |
| StatusPoller.MonitorSkipsWaits | apps/js-sdk/firecrawl/dist/index.cjs:727-731 | a run of in-progress polls only adds one sleep each and does not change the eventual outcome |
| StatusPoller.MonitorReturnsStitched | apps/js-sdk/firecrawl/dist/index.cjs:706-742 | after any in-progress polls, a completed response with a cursor chain returns the last page whose data is all pages' data stitched in order, after exactly one sleep per in-progress poll |
| StatusPoller.MonitorRejectsNonOk | apps/js-sdk/firecrawl/dist/index.cjs:738-740 | a non-200 status response ends polling with `handleError`'s error, carrying the response's own status |
| StatusPoller.MonitorRejectsStopped | apps/js-sdk/firecrawl/dist/index.cjs:724-737 | a 200 response that is neither in progress nor completed with data throws with code 500 and the matching message |
| StatusPoller.MonitorReturnSound | apps/js-sdk/firecrawl/dist/index.cjs:706-742 | the poller never returns before a completed response: a returned result was preceded only by in-progress polls, one per sleep, and its cursor chain was followed to the end |
| StatusPoller.CheckStatus | apps/js-sdk/firecrawl/dist/index.cjs:269-310 | an empty id throws with code 400; any other throw has code 500; a returned status copies the first response's fields, and its data is the first page's own unless pagination applies, in which case it extends it; the batch-scrape variant (`checkBatchScrapeStatus`, index.cjs lines 450-491) behaves identically with its own wording |
| StatusPoller.CheckStatusStitches | apps/js-sdk/firecrawl/dist/index.cjs:279-302 | with `getAllData` on a completed job, the data is the stitched chain while every other field is the first response's |
| StatusPoller.CheckStatusRewrapsNonOk | apps/js-sdk/firecrawl/dist/index.cjs:303-308 | a non-200 response reaches the caller with `handleError`'s message but code 500, losing any other status |
| CrawlWatcher.HandleMessage | apps/js-sdk/firecrawl/dist/index.cjs:772-803 | `done` and `error` set the terminal status and dispatch one event carrying the buffer; `catchup` takes its status, appends its documents (none when absent) and replays the whole buffer; `document` dispatches one event and leaves the state alone; unknown types do nothing; no message makes the client call `close()` or drops a buffered document |
| CrawlWatcher.OnFrame | apps/js-sdk/firecrawl/dist/index.cjs:804-825 | a non-text frame makes the client call `close()` and emits nothing; a close frame is handled as its reason's message; a socket error sets "failed" and emits one error event with "WebSocket error" |
| CrawlWatcher.Run | apps/js-sdk/firecrawl/dist/index.cjs:804-825 | frames are handled in arrival order, and the client calls `close()` exactly when some frame was non-text |
| CrawlWatcher.RunAppendOnly | apps/js-sdk/firecrawl/dist/index.cjs:772-825 | over any frame sequence the buffer only grows |
| CrawlWatcher.RunConcat | apps/js-sdk/firecrawl/dist/index.cjs:804-815 | handling two frame runs back to back equals handling their concatenation, so events keep arrival order |
| CrawlWatcher.BinaryFramesAreSilent | apps/js-sdk/firecrawl/dist/index.cjs:805-808 | any number of non-text frames emit nothing, change nothing, and make the client call `close()` |
| CrawlWatcher.CatchupThenDocument | apps/js-sdk/firecrawl/dist/index.cjs:790-802 | a catchup of n documents and then one document emit n + 1 document events in order, while the buffer holds only the n |
| CrawlWatcher.CatchupReplaysHeldDocuments | apps/js-sdk/firecrawl/dist/index.cjs:790-797 | a second catchup replays documents already dispatched by the first |
| CrawlWatcher.TerminalStatusCanBeOverwritten | apps/js-sdk/firecrawl/dist/index.cjs:773-791 | a catchup after done replaces "completed" with the catchup's status |
| CrawlWatcher.StatusSources | apps/js-sdk/firecrawl/dist/index.cjs:772-825 | the status changes only to "completed", to "failed", or by a catchup |
| RelevantUrls.TrimStart | apps/js-sdk/firecrawl/src/anthropic.ts:85 | removes exactly the leading whitespace: the result is a suffix, all dropped characters are whitespace, and it does not start with whitespace |
| RelevantUrls.TrimEnd | apps/js-sdk/firecrawl/src/anthropic.ts:85 | removes exactly the trailing whitespace, symmetrically |
| RelevantUrls.Trim | apps/js-sdk/firecrawl/src/anthropic.ts:85 | the result neither starts nor ends with whitespace and is the input minus a whitespace prefix and a whitespace suffix |
| RelevantUrls.TrimIsBothCuts | apps/js-sdk/firecrawl/src/anthropic.ts:85 | trimming both ends at once removes the same characters as trimming the start and then the end |
| RelevantUrls.TrimEmpty | apps/js-sdk/firecrawl/src/anthropic.ts:85-86 | a trimmed line is empty exactly when the line is all whitespace |
| RelevantUrls.Split | apps/js-sdk/firecrawl/src/anthropic.ts:84 | there is always at least one piece, and no piece contains the separator |
| RelevantUrls.JoinSplit | apps/js-sdk/firecrawl/src/anthropic.ts:84 | joining the pieces with the separator gives back the text |
| RelevantUrls.SplitJoin | apps/js-sdk/firecrawl/src/anthropic.ts:84 | splitting the join of one or more separator-free pieces gives back those pieces |
| RelevantUrls.IndexOf | apps/js-sdk/firecrawl/src/anthropic.ts:75 | finds the first occurrence of a pattern at or after a position, or reports that there is none |
| RelevantUrls.FindTagged | apps/js-sdk/firecrawl/src/anthropic.ts:75 | finds the leftmost opening tag that has a closing tag after it, and the first such closing tag; none exactly when no such pair exists |
| RelevantUrls.Capture | apps/js-sdk/firecrawl/src/anthropic.ts:75 | the regex matches exactly when some opening tag is followed by a closing tag |
| RelevantUrls.ParsedFromFirstTags | apps/js-sdk/firecrawl/src/anthropic.ts:75 | when no opening tag comes before the first one and no closing tag occurs inside the captured text, the capture is exactly the text between the first opening tag and the first closing tag after it |
| RelevantUrls.ChainIsLineWise | apps/js-sdk/firecrawl/src/anthropic.ts:83-88 | the staged trim, filter, strip and filter chain equals cleaning each line independently |
| RelevantUrls.StripDash | apps/js-sdk/firecrawl/src/anthropic.ts:87 | a line starting with "- " becomes the text after that prefix (putting "- " back gives the line); any other line is unchanged |
| RelevantUrls.Without | apps/js-sdk/firecrawl/src/anthropic.ts:86-88 | each of the two filters (empty lines, then "..." placeholders) keeps exactly the lines other than the dropped one and never adds a line |
| RelevantUrls.WithoutInOrder | apps/js-sdk/firecrawl/src/anthropic.ts:86-88 | each filter's result is an in-order subsequence of its input, holding every copy of each kept line and no copy of the dropped one |
| RelevantUrls.StripDashKeepsContent | apps/js-sdk/firecrawl/src/anthropic.ts:87 | stripping "- " from a trimmed non-empty line never leaves an empty entry |
| RelevantUrls.CleanLineEntry | apps/js-sdk/firecrawl/src/anthropic.ts:83-88 | a line contributes nothing, or an entry that is neither empty nor "..." |
| RelevantUrls.KeepCleanEntries | apps/js-sdk/firecrawl/src/anthropic.ts:83-88 | cleaning keeps at most one entry per line, none empty and none "..." |
| RelevantUrls.KeepCleanMembers | apps/js-sdk/firecrawl/src/anthropic.ts:83-88 | an entry appears exactly when some line cleans to it |
| RelevantUrls.ParseLines | apps/js-sdk/firecrawl/src/anthropic.ts:83-88 | the parsed URLs are exactly the line-by-line clean-up of the lines, in line order and with repeats kept; so there is at most one per line, none is empty or "...", and a URL is listed exactly when some line cleans to it |
| RelevantUrls.FirstTextBlock | apps/js-sdk/firecrawl/src/anthropic.ts:66 | returns the first block whose type is text, every earlier block being of another type, or none when no block is text |
| RelevantUrls.FindRelevantUrls | apps/js-sdk/firecrawl/src/anthropic.ts:65-99 | an error comes with no URLs; a failed model call reports its message or "Unknown error occurred"; "Invalid response from Claude" is reported exactly when there is no text block, or the first text block has no `text`; the missing-tags error is reported exactly when the first text block's text has no tagged section or an empty one; the call succeeds exactly when the section is non-empty, and then returns the cleaned lines of that section, each listed exactly when some line cleans to it |
| RelevantUrls.MissingTagsReported | apps/js-sdk/firecrawl/src/anthropic.ts:75-81 | a text without a tagged section, or with an empty one, yields no URLs and the missing-tags error |
| SmartCrawl.Interpret | apps/js-sdk/firecrawl/dist/index.cjs:535-548 | a scrape contributes a result exactly when it returned with success; the result is for its URL and is found exactly when the extract says found |
| SmartCrawl.ScrapeBatch | apps/js-sdk/firecrawl/dist/index.cjs:520-553 | a batch leaves the candidates and finds alone, only appends to the reserved URLs, counts exactly the URLs it reserves (at most one per member), reserves every member, and reserves nothing outside the batch |
| SmartCrawl.BatchKeepsNoDup | apps/js-sdk/firecrawl/dist/index.cjs:521-524 | a batch never reserves a URL twice, even when the batch repeats it |
| SmartCrawl.BatchHitsAreNew | apps/js-sdk/firecrawl/dist/index.cjs:520-552 | every result of a batch is for a URL this batch reserved, and is what that URL's scrape reply makes of it |
| SmartCrawl.BatchPreservesInv | apps/js-sdk/firecrawl/dist/index.cjs:520-553 | a batch keeps `totalScrapes` equal to the number of distinct reserved URLs |
| SmartCrawl.BatchFresh | apps/js-sdk/firecrawl/dist/index.cjs:521-524 | a batch of distinct, unreserved URLs reserves all of them in batch order |
| SmartCrawl.BatchReportsFresh | apps/js-sdk/firecrawl/dist/index.cjs:535-552 | a successful scrape of an unreserved batch member appears among the batch's results |
| SmartCrawl.Prune | apps/js-sdk/firecrawl/dist/index.cjs:570-572 | a candidate survives exactly when it was a candidate, is not in the batch and is not reserved; the list never grows |
| SmartCrawl.PruneInOrder | apps/js-sdk/firecrawl/dist/index.cjs:570-572 | the surviving candidates keep their order and multiplicity: an in-order subsequence holding every copy of each survivor and none of a removed URL |
| SmartCrawl.PruneShrinks | apps/js-sdk/firecrawl/dist/index.cjs:570-572 | removing a batch that contains a candidate shortens the candidate list |
| SmartCrawl.Finds | apps/js-sdk/firecrawl/dist/index.cjs:562-569 | exactly the found results become finds, with their URL and content, and no more finds than results |
| SmartCrawl.FindsAppend | apps/js-sdk/firecrawl/dist/index.cjs:562-569 | finds keep the order of the results: the finds of two runs of results are those of the first followed by those of the second |
| SmartCrawl.BatchFindsInOrder | apps/js-sdk/firecrawl/dist/index.cjs:520-569 | a batch of distinct, unreserved URLs yields one find per member whose scrape says found, with that scrape's content, in batch order (`Promise.all` keeps input order) |
| SmartCrawl.FoundInHead | apps/js-sdk/firecrawl/dist/index.cjs:562-578 | when some batch member is found, the first of the batch's finds is that of the first found member in batch order |
| SmartCrawl.BatchOf | apps/js-sdk/firecrawl/dist/index.cjs:560 | the batch is the prefix of exactly min(5, n) of the n ranked URLs |
| SmartCrawl.Round | apps/js-sdk/firecrawl/dist/index.cjs:556-559 | a round stops exactly when the ranking has an error or no URLs |
| SmartCrawl.RoundProgress | apps/js-sdk/firecrawl/dist/index.cjs:556-572 | a round that goes on only appends, adds at most five scrapes, reserves the whole batch, and keeps as candidates exactly the old ones outside the batch and not reserved |
| SmartCrawl.RoundBudget | apps/js-sdk/firecrawl/dist/index.cjs:560-561 | a round adds at most five scrapes |
| SmartCrawl.RoundPreservesInv | apps/js-sdk/firecrawl/dist/index.cjs:555-573 | a round keeps the invariant: reserved URLs distinct and counted, candidates unreserved, every find reserved |
| SmartCrawl.RoundsBehave | apps/js-sdk/firecrawl/dist/index.cjs:555-573 | every round of the real loop body keeps the invariant and only grows the accumulators |
| SmartCrawl.Loop | apps/js-sdk/firecrawl/dist/index.cjs:555-573 | a loop that ends does so within its fuel, at a round index it reports, either because the guard (fewer finds than the quota of one, scrapes below the limit, candidates left) fails on the final state or because the round run at that index on that state stopped |
| SmartCrawl.LoopKeepsInv | apps/js-sdk/firecrawl/dist/index.cjs:555-573 | the invariant holds when the loop ends |
| SmartCrawl.LoopGrows | apps/js-sdk/firecrawl/dist/index.cjs:555-573 | the loop only appends, and overshoots `limit` by at most four scrapes because the budget is checked only before a batch |
| SmartCrawl.FixedPointNeverExits | apps/js-sdk/firecrawl/dist/index.cjs:555-573 | a state that the guard admits and every round leaves unchanged keeps the loop running whatever the fuel |
| SmartCrawl.RankingOfferedShrinks | apps/js-sdk/firecrawl/dist/index.cjs:556-572 | when the model ranks an offered URL first, every round removes at least one candidate |
| SmartCrawl.ShrinkingLoopEnds | apps/js-sdk/firecrawl/dist/index.cjs:555 | a loop whose rounds all remove a candidate ends within as many rounds as there are candidates |
| SmartCrawl.Start | apps/js-sdk/firecrawl/dist/index.cjs:505-507 | the initial accumulators satisfy the invariant |
| SmartCrawl.Report | apps/js-sdk/firecrawl/dist/index.cjs:574-583 | the result succeeds, lists the reserved URLs and the true counts, and returns only the first find, or none |
| SmartCrawl.Crawl | apps/js-sdk/firecrawl/dist/index.cjs:499-596 | a site-map failure returns `success: false` with zero scrapes; a map reply that failed or has no `links` key returns the "No links found to scrape." error; any other finished run succeeds, lists distinct URLs, counts one scrape per listed URL, stays within `limit + 4`, and returns at most one find, which is listed |
| SmartCrawl.RoundKeepsClean | apps/js-sdk/firecrawl/dist/index.cjs:556-572 | a round whose ranking lists only non-empty, non-"..." URLs, and none when it carries an error, reserves only such URLs |
| SmartCrawl.RankingKeepsClean | apps/js-sdk/firecrawl/dist/index.cjs:556-572 | every round driven by `findRelevantUrls` keeps the reserved URLs free of empty and "..." entries |
| SmartCrawl.LoopKeepsClean | apps/js-sdk/firecrawl/dist/index.cjs:555-573 | the loop keeps the reserved URLs free of empty and "..." entries |
| SmartCrawl.Run | apps/js-sdk/firecrawl/dist/index.cjs:499-596 | with the model's raw replies, a run fails only when the site map does, and every URL a successful run lists is non-empty and not "..." |
| SmartCrawl.CrawlWithOfferedRankingFinishes | apps/js-sdk/firecrawl/dist/index.cjs:555-583 | when the model ranks an offered URL first, a run finishes within one round per site-map link |
| SmartCrawl.EmptyRankingEndsCleanly | apps/js-sdk/firecrawl/dist/index.cjs:557-559 | when the first ranking lists no URL (as every failed ranking does), the run succeeds at once with no URL, no data and zero counts |
| SmartCrawl.RankerFailureEndsCleanly | apps/js-sdk/firecrawl/src/anthropic.ts:94-99 | a model call that throws in the first round makes the run succeed at once, having scraped nothing |
| SmartCrawl.FirstRoundFinds | apps/js-sdk/firecrawl/dist/index.cjs:560-569 | a first batch of distinct URLs with a found member reserves the whole batch and records exactly the batch's finds in batch order |
| SmartCrawl.QuotaLoop | apps/js-sdk/firecrawl/dist/index.cjs:555-573 | such a loop stops after its first round, at round index 1, holding the batch's finds in batch order |
| SmartCrawl.QuotaMetInFirstRound | apps/js-sdk/firecrawl/dist/index.cjs:555-583 | when a member of the first batch is found, the run ends after that round, listing exactly the batch, counting one scrape per member, and returning the find of the first found member in batch order, with its content |
| SmartCrawl.StuckFirstRound | apps/js-sdk/firecrawl/dist/index.cjs:520-572 | a ranked URL outside the candidates is scraped once and leaves the candidate list unchanged |
| SmartCrawl.StuckLaterRound | apps/js-sdk/firecrawl/dist/index.cjs:520-572 | ranking that URL again is skipped as already reserved and changes nothing |
| SmartCrawl.StuckRankerNeverFinishes | apps/js-sdk/firecrawl/dist/index.cjs:555-573 | a model that keeps ranking a URL outside the site map, whose page never answers, keeps the loop running for ever |

## Left out

- HTTP plumbing is not modelled: headers, URL building, axios and `getRequest`'s rethrow. A fetch is either a response or a failure carrying a message.
- `monitorJobStatus`'s timer is not modelled. Sleeps are durations in seconds, and the `* 1e3` conversion to milliseconds is not modelled.
- `Promise.all` concurrency is not modelled. A batch's reservations all happen before any fetch settles, so a sequential reading gives the same reservations and results in input order.
- JSON parsing of frames is not modelled. A frame's text is already a decoded message. A malformed frame or close reason (where `JSON.parse` throws inside the handler) is not modelled.
- Message dispatch on `msg.type` is modelled as a variant per known type plus `Other` for every other type.
- Event payload aliasing is not modelled. An event carries the buffer as a value, while the source hands listeners the live array.
- `CrawlWatcher.close()`, the event-target listener registry, the WebSocket constructor and `apiKey` handling are not modelled.
- The language-model request is not modelled: the prompt, client construction, model name and token limit. The reply is an input.
- The `zod` schema and the scrape options are not modelled. A scrape reply is its `success` flag plus the optional `{found, data}` extract.
- `new Date(expiresAt)` is not modelled; `expiresAt` is kept as received.
- `console` output is not modelled.
- `utils.ts` and the playwright engine are not part of this model.
- JSON `null` is not distinguished from an absent key. `"next" in statusData` and `"data" in statusData` are read as "present with a value".
- Document contents are opaque.
- The `smartCrawl` catch branch models only a thrown `mapUrl`, the only call that can throw there. Its error text is the thrown message; "Unknown error occurred" for a non-`Error` throw is folded into that message.
- SmartCrawl.Crawl: bounded by `fuel` rounds. A run that would exceed the fuel is `Running`, not a response. `StuckRankerNeverFinishes` shows that no fuel bound is enough in general.
- StatusPoller.SleepSeconds: the interval is a real number, so fractional intervals are covered. A NaN interval is not modelled: the source's floor gives NaN there and the timer fires at once, so that input does not get the two-second floor.
- StatusPoller.MonitorJobStatus and StatusPoller.CheckStatus: a run that needs more fetches than the trace holds is `Unfinished`, not a response.
- CrawlWatcher.Run: frames keep being handled after the client's own `close()`. A closing socket delivers no further messages, so a frame sequence that continues after a non-text frame is more than the source can receive. The frame sequence is taken as given.
- SmartCrawl.Crawl: `limit` is an optional integer, while the source accepts any number. A fractional limit acts as its ceiling under `totalScrapes < limit`. A NaN limit, which `??` keeps, stops the loop at once, as 0 does. Neither is modelled separately.
- Http.HandleError: the message is stated by a prefix and a suffix. The prefix carries the action, and for 402, 408, 409 and 500 also the status code. The suffix carries the server text or the status code. The contract does not state that nothing lies between the prefix and the suffix.
- RelevantUrls.Trim: trims the ECMAScript whitespace and line-terminator characters listed in `IsWhitespace`. Other Unicode space separators (category Zs) beyond those listed are not treated as whitespace.

=== FILE: http.dfy ===
/** Responses of the status endpoint and the client's `handleError`. */
module Http {
  import opened Types

  /** The JSON body of a job-status response. Absent keys are `None`;
      `next` is the cursor URL of the following page. */
  datatype StatusBody = StatusBody(
    success: bool,
    status: string,
    total: int,
    completed: int,
    creditsUsed: int,
    expiresAt: string,
    next: Option<string>,
    data: Option<seq<Document>>,
    error: Option<string>)

  /** An HTTP response: axios hands back the response for every status. */
  datatype Response = Response(status: nat, body: StatusBody)

  /** What one `getRequest` yields: a response of any status, or a failure
      that produced no response (which `getRequest` rethrows). */
  datatype Fetch = Got(response: Response) | NoResponse(message: string)

  /** Status codes for which the server's own error text is reported. */
  const KnownFailureCodes: set<nat> := {402, 408, 409, 500}

  predicate IsDigit(c: char) {
    '0' <= c <= '9'
  }

  /** Decimal rendering of a status code, as template literals print it. */
  function DecimalString(n: nat): (s: string)
    ensures |s| >= 1
    ensures forall i :: 0 <= i < |s| ==> IsDigit(s[i])
    ensures n < 10 <==> |s| == 1
    ensures s[0] == '0' <==> n == 0
  {
    var last := ['0' + (n % 10) as char];
    if n < 10 then last else DecimalString(n / 10) + last
  }

  /** Value of a decimal digit string; the inverse of `DecimalString`. */
  function DigitsValue(s: string): nat
    requires forall i :: 0 <= i < |s| ==> IsDigit(s[i])
  {
    if |s| == 0 then 0
    else
      assert IsDigit(s[|s| - 1]);
      10 * DigitsValue(s[..|s| - 1]) + (s[|s| - 1] as int - '0' as int)
  }

  lemma {:induction false} DecimalStringRoundTrip(n: nat)
    ensures DigitsValue(DecimalString(n)) == n
  {
    var s := DecimalString(n);
    if n >= 10 {
      DecimalStringRoundTrip(n / 10);
      assert s[..|s| - 1] == DecimalString(n / 10);
    }
  }

  /** The server's error text when it is a non-empty string, otherwise the
      fixed fallback text. */
  function ErrorText(error: Option<string>): (t: string)
    ensures t != ""
    ensures Truthy(error) ==> t == error.value
  {
    if Truthy(error) then error.value else "Unknown error occurred"
  }

  /** A message built as `head + middle + tail` starts with `head` and ends
      with `tail`. */
  lemma Affixes(head: string, middle: string, tail: string)
    ensures StartsWith(head + middle + tail, head)
    ensures EndsWith(head + middle + tail, tail)
  {
    var m := head + middle + tail;
    assert m[..|head|] == head;
    assert m[|m| - |tail|..] == tail;
  }

  /** `handleError`: always throws, with the response's status as code.
      Known failure codes report the action, the status and the server's
      error text; every other code reports the action and the status. */
  function HandleError(response: Response, action: string): (e: Error)
    ensures e.statusCode == Some(response.status as int)
    ensures response.status in KnownFailureCodes ==>
              && StartsWith(e.message, "Failed to " + action + ". Status code: " + DecimalString(response.status))
              && EndsWith(e.message, ". Error: " + ErrorText(response.body.error))
    ensures response.status !in KnownFailureCodes ==>
              && StartsWith(e.message, "Unexpected error occurred while trying to " + action)
              && EndsWith(e.message, ". Status code: " + DecimalString(response.status))
  {
    var code := DecimalString(response.status);
    if response.status in KnownFailureCodes then
      var head := "Failed to " + action + ". Status code: " + code;
      var tail := ". Error: " + ErrorText(response.body.error);
      Affixes(head, "", tail);
      assert head + "" + tail == head + tail;
      Error(head + tail, Some(response.status))
    else
      var head := "Unexpected error occurred while trying to " + action;
      var tail := ". Status code: " + code;
      Affixes(head, "", tail);
      assert head + "" + tail == head + tail;
      Error(head + tail, Some(response.status))
  }
}

=== FILE: poller.dfy ===
/** The pull channel: `monitorJobStatus` and the `getAllData` pagination of
    `checkCrawlStatus` / `checkBatchScrapeStatus`.

    Every `getRequest` the client issues consumes the next element of a
    finite trace of fetch outcomes. When the trace runs out before the client
    would stop, the outcome is `Unfinished`; sleeps are recorded as durations
    in seconds instead of being performed. */
module StatusPoller {
  import opened Types
  import opened Http

  /** Statuses after which `monitorJobStatus` sleeps and polls again. */
  const InProgress: set<string> := {"active", "paused", "pending", "queued", "waiting", "scraping"}

  /** Floor of the wait between two polls, in seconds. */
  const MinIntervalSeconds: real := 2.0

  /** The wait before the next poll: the caller's interval, raised to the
      two-second floor when it is shorter. The interval is a JavaScript
      number, so it may be fractional. */
  function SleepSeconds(interval: real): (w: real)
    ensures w >= MinIntervalSeconds && w >= interval
    ensures w == interval || w == MinIntervalSeconds
  {
    if interval < MinIntervalSeconds then MinIntervalSeconds else interval
  }

  // ---------------------------------------------------------------------------
  // Cursor following
  // ---------------------------------------------------------------------------

  /** What one later page adds to the stitched array: the page's own array,
      or, since concatenating a missing value appends it as one element, a
      single `undefined` when it has none. A page adds nothing only when it
      carries an empty array. */
  function PageData(body: StatusBody): (r: seq<Document>)
    ensures body.data.Some? ==> r == body.data.value
    ensures body.data.None? ==> |r| == 1 && r[0].Undefined?
    ensures |r| == 0 ==> body.data == Some([])
  {
    match body.data
    case Some(d) => d
    case None => [Undefined]
  }

  datatype Pages =
    | Paged(data: seq<Document>, last: StatusBody, rest: seq<Fetch>, cursors: seq<string>)
    | PageThrew(error: Error)
    | PagesUnfinished

  /** The cursor loop, run while the current page has a `next` cursor:
      fetch the cursor, append the page's data, continue from the fetched
      page. Whatever the page's
      HTTP status, its body is taken as the next page. */
  function FollowPages(data: seq<Document>, body: StatusBody, trace: seq<Fetch>): (r: Pages)
    ensures r.Paged? ==> r.last.next.None?
    ensures r.Paged? ==> |r.cursors| + |r.rest| == |trace| && r.rest == trace[|r.cursors|..]
    ensures r.Paged? ==> data <= r.data
    ensures body.next.None? ==> r == Paged(data, body, trace, [])
    decreases |trace|
  {
    if body.next.None? then Paged(data, body, trace, [])
    else if |trace| == 0 then PagesUnfinished
    else
      match trace[0]
      case NoResponse(m) => PageThrew(Error(m, None))
      case Got(resp) =>
        var r := FollowPages(data + PageData(resp.body), resp.body, trace[1..]);
        if r.Paged? then r.(cursors := [body.next.value] + r.cursors) else r
  }

  // Reference definition of a cursor chain, independent of the loop.

  function Bodies(pages: seq<Response>): (b: seq<StatusBody>)
    ensures |b| == |pages|
    ensures forall i :: 0 <= i < |pages| ==> b[i] == pages[i].body
  {
    seq(|pages|, i requires 0 <= i < |pages| => pages[i].body)
  }

  function Gots(pages: seq<Response>): (t: seq<Fetch>)
    ensures |t| == |pages|
    ensures forall i :: 0 <= i < |pages| ==> t[i] == Got(pages[i])
  {
    seq(|pages|, i requires 0 <= i < |pages| => Got(pages[i]))
  }

  /** The pages' contributions, concatenated in fetch order. */
  function ConcatPages(bodies: seq<StatusBody>): seq<Document> {
    if |bodies| == 0 then [] else PageData(bodies[0]) + ConcatPages(bodies[1..])
  }

  /** The body whose `next` cursor leads to page `i`. */
  function Before(first: StatusBody, bodies: seq<StatusBody>, i: nat): StatusBody
    requires i <= |bodies|
  {
    if i == 0 then first else bodies[i - 1]
  }

  function LastOf(first: StatusBody, bodies: seq<StatusBody>): StatusBody {
    Before(first, bodies, |bodies|)
  }

  /** `bodies` are exactly the pages reached from `first` by following
      cursors: every page is announced by a `next` on its predecessor and the
      last one announces none. */
  predicate IsChain(first: StatusBody, bodies: seq<StatusBody>) {
    && (forall i :: 0 <= i < |bodies| ==> Before(first, bodies, i).next.Some?)
    && LastOf(first, bodies).next.None?
  }

  /** The cursor URLs requested along a chain, in order. */
  function ChainCursors(first: StatusBody, bodies: seq<StatusBody>): (c: seq<string>)
    requires IsChain(first, bodies)
    ensures |c| == |bodies|
    ensures forall i :: 0 <= i < |bodies| ==> c[i] == Before(first, bodies, i).next.value
  {
    seq(|bodies|, i requires 0 <= i < |bodies| => Before(first, bodies, i).next.value)
  }

  /** The tail of a chain is a chain from its first page, requesting the
      same cursors after the first. */
  lemma ChainTail(first: StatusBody, b: StatusBody, bs: seq<StatusBody>)
    requires IsChain(first, [b] + bs)
    ensures first.next.Some? && IsChain(b, bs)
    ensures LastOf(first, [b] + bs) == LastOf(b, bs)
    ensures ChainCursors(first, [b] + bs) == [first.next.value] + ChainCursors(b, bs)
  {
    var all := [b] + bs;
    assert Before(first, all, 0) == first;
    forall i | 0 < i <= |all|
      ensures Before(first, all, i) == Before(b, bs, i - 1)
    {
      if i > 1 {
        assert all[i - 1] == bs[i - 2];
      }
    }
    forall i | 0 <= i < |bs|
      ensures Before(b, bs, i).next.Some?
    {
      assert Before(first, all, i + 1).next.Some?;
    }
    assert LastOf(first, all) == Before(b, bs, |bs|);
    var cs := ChainCursors(first, all);
    assert cs[1..] == ChainCursors(b, bs);
  }

  /** Following a cursor chain fetches each page once, in order, and
      stitches the first array with every page's array in fetch order. */
  lemma {:induction false} FollowPagesComplete(
    data: seq<Document>, first: StatusBody, pages: seq<Response>, rest: seq<Fetch>)
    requires IsChain(first, Bodies(pages))
    ensures FollowPages(data, first, Gots(pages) + rest)
            == Paged(data + ConcatPages(Bodies(pages)), LastOf(first, Bodies(pages)),
                     rest, ChainCursors(first, Bodies(pages)))
    decreases |pages|
  {
    if |pages| == 0 {
      assert Gots(pages) + rest == rest;
      assert ConcatPages(Bodies(pages)) == [];
    } else {
      var p := pages[0];
      assert pages == [p] + pages[1..];
      var tail := Bodies(pages[1..]);
      BodiesCons(p, pages[1..]);
      ChainTail(first, p.body, tail);
      var all := Bodies(pages);
      var data' := data + PageData(p.body);
      GotsCons(pages, rest);
      FollowPagesGot(data, first, p, Gots(pages[1..]) + rest);
      FollowPagesComplete(data', p.body, pages[1..], rest);
      var sub := FollowPages(data', p.body, Gots(pages[1..]) + rest);
      assert sub == Paged(data' + ConcatPages(tail), LastOf(p.body, tail), rest, ChainCursors(p.body, tail));
      ChainCons(first, p.body, tail);
      assert data' + ConcatPages(tail) == data + ConcatPages(all);
      assert FollowPages(data, first, Gots(pages) + rest) == sub.(cursors := [first.next.value] + sub.cursors);
    }
  }

  lemma GotsCons(pages: seq<Response>, rest: seq<Fetch>)
    requires |pages| > 0
    ensures Gots(pages) + rest == [Got(pages[0])] + (Gots(pages[1..]) + rest)
  {
    var t := Gots(pages) + rest;
    assert t[1..] == Gots(pages[1..]) + rest;
  }

  /** One step of the cursor loop on a fetched page. */
  lemma FollowPagesGot(data: seq<Document>, body: StatusBody, resp: Response, t: seq<Fetch>)
    requires body.next.Some?
    ensures var r := FollowPages(data + PageData(resp.body), resp.body, t);
            FollowPages(data, body, [Got(resp)] + t)
            == if r.Paged? then r.(cursors := [body.next.value] + r.cursors) else r
  {
    assert ([Got(resp)] + t)[1..] == t;
  }

  /** Every fetch of the run produced a response. */
  predicate AllGot(t: seq<Fetch>) {
    forall i :: 0 <= i < |t| ==> t[i].Got?
  }

  /** The responses of a run of fetches that all produced one. */
  function Responses(t: seq<Fetch>): (pages: seq<Response>)
    requires AllGot(t)
    ensures Gots(pages) == t
  {
    var pages := seq(|t|, i requires 0 <= i < |t| => t[i].response);
    assert forall i :: 0 <= i < |t| ==> Gots(pages)[i] == t[i];
    pages
  }

  lemma ResponsesCons(f: Fetch, t: seq<Fetch>)
    requires f.Got? && AllGot(t)
    ensures AllGot([f] + t) && Responses([f] + t) == [f.response] + Responses(t)
  {
    assert forall i :: 0 < i < |[f] + t| ==> ([f] + t)[i] == t[i - 1];
  }

  lemma BodiesCons(p: Response, pages: seq<Response>)
    ensures Bodies([p] + pages) == [p.body] + Bodies(pages)
  {
    assert forall i :: 0 < i < |[p] + pages| ==> ([p] + pages)[i] == pages[i - 1];
  }

  /** A page announced by `first` in front of a chain from that page is a
      chain from `first`, ending where the shorter one ends. */
  lemma ChainCons(first: StatusBody, b: StatusBody, bs: seq<StatusBody>)
    requires first.next.Some? && IsChain(b, bs)
    ensures IsChain(first, [b] + bs)
    ensures LastOf(first, [b] + bs) == LastOf(b, bs)
    ensures ConcatPages([b] + bs) == PageData(b) + ConcatPages(bs)
  {
    var all := [b] + bs;
    assert all[1..] == bs;
    forall i | 0 < i <= |all|
      ensures Before(first, all, i) == Before(b, bs, i - 1)
    {
      if i > 1 {
        assert all[i - 1] == bs[i - 2];
      }
    }
    assert LastOf(first, all) == Before(b, bs, |bs|);
  }

  /** The fetches `t` were all responses forming a cursor chain from
      `first`; stitching them onto `data` gives `out`, and `last` is the
      final page. */
  predicate Explains(data: seq<Document>, first: StatusBody, t: seq<Fetch>, out: seq<Document>, last: StatusBody) {
    && AllGot(t)
    && var bodies := Bodies(Responses(t));
       && IsChain(first, bodies)
       && out == data + ConcatPages(bodies)
       && last == LastOf(first, bodies)
  }

  lemma ExplainsCons(data: seq<Document>, first: StatusBody, f: Fetch, t: seq<Fetch>, out: seq<Document>, last: StatusBody)
    requires f.Got? && first.next.Some?
    requires Explains(data + PageData(f.response.body), f.response.body, t, out, last)
    ensures Explains(data, first, [f] + t, out, last)
  {
    ResponsesCons(f, t);
    var pages := Responses(t);
    BodiesCons(f.response, pages);
    ChainCons(first, f.response.body, Bodies(pages));
  }

  /** Conversely, every completed pagination is a cursor chain: the pages
      consumed were all responses, announced one by one, the last with no
      cursor, and the stitched array is their concatenation. */
  lemma {:induction false} FollowPagesSound(data: seq<Document>, first: StatusBody, trace: seq<Fetch>)
    requires FollowPages(data, first, trace).Paged?
    ensures var r := FollowPages(data, first, trace);
            && |r.cursors| <= |trace|
            && Explains(data, first, trace[..|r.cursors|], r.data, r.last)
    decreases |trace|
  {
    var r := FollowPages(data, first, trace);
    if first.next.None? {
      assert trace[..|r.cursors|] == [];
      assert Responses([]) == [];
      assert Bodies([]) == [];
    } else {
      var p := trace[0].response;
      var sub := FollowPages(data + PageData(p.body), p.body, trace[1..]);
      assert r == sub.(cursors := [first.next.value] + sub.cursors);
      FollowPagesSound(data + PageData(p.body), p.body, trace[1..]);
      var t' := trace[1..][..|sub.cursors|];
      assert trace[..|r.cursors|] == [trace[0]] + t';
      ExplainsCons(data, first, trace[0], t', sub.data, sub.last);
    }
  }

  // ---------------------------------------------------------------------------
  // monitorJobStatus
  // ---------------------------------------------------------------------------

  /** What one 200-or-not status response tells the poll loop. */
  datatype Verdict = Complete(data: seq<Document>) | Wait | Fail(error: Error)

  /** The branch structure of one iteration of `monitorJobStatus`. */
  function Classify(resp: Response): (v: Verdict)
    ensures v.Wait? <==> resp.status == 200 && resp.body.status in InProgress
    ensures v.Complete? <==> resp.status == 200 && resp.body.status == "completed" && resp.body.data.Some?
    ensures v.Complete? ==> v.data == resp.body.data.value
    ensures v.Fail? && resp.status != 200 ==> v.error == HandleError(resp, "check crawl status")
    ensures v.Fail? && resp.status == 200 ==> v.error.statusCode == Some(500)
    ensures v.Fail? ==> v.error.statusCode == Some(resp.status as int) || v.error.statusCode == Some(500)
  {
    var body := resp.body;
    if resp.status != 200 then Fail(HandleError(resp, "check crawl status"))
    else if body.status == "completed" then
      if body.data.Some? then Complete(body.data.value)
      else Fail(Error("Crawl job completed but no data was returned", Some(500)))
    else if body.status in InProgress then Wait
    else Fail(Error("Crawl job failed or was stopped. Status: " + body.status, Some(500)))
  }

  datatype PollOutcome = Returned(body: StatusBody) | Threw(error: Error) | Unfinished

  /** An outcome and the sleeps (in seconds) taken before reaching it. */
  datatype Poll = Poll(outcome: PollOutcome, sleeps: seq<real>)

  /** `monitorJobStatus` with the given poll interval, over a trace of
      fetches. */
  function MonitorJobStatus(interval: real, trace: seq<Fetch>): (r: Poll)
    ensures forall i :: 0 <= i < |r.sleeps| ==> r.sleeps[i] == SleepSeconds(interval)
    ensures forall i :: 0 <= i < |r.sleeps| ==> r.sleeps[i] >= MinIntervalSeconds
    ensures |r.sleeps| <= |trace|
    ensures r.outcome.Returned? ==> r.outcome.body.next.None? && r.outcome.body.data.Some?
    decreases |trace|
  {
    if |trace| == 0 then Poll(Unfinished, [])
    else
      match trace[0]
      case NoResponse(m) => Poll(Threw(Error(m, None)), [])
      case Got(resp) =>
        match Classify(resp)
        case Fail(e) => Poll(Threw(e), [])
        case Wait =>
          var wait := SleepSeconds(interval);
          var r := MonitorJobStatus(wait, trace[1..]);
          Poll(r.outcome, [wait] + r.sleeps)
        case Complete(first) =>
          match FollowPages(first, resp.body, trace[1..])
          case Paged(all, last, _, _) => Poll(Returned(last.(data := Some(all))), [])
          case PageThrew(e) => Poll(Threw(e), [])
          case PagesUnfinished => Poll(Unfinished, [])
  }

  /** A 200 response whose status keeps the loop polling. */
  predicate IsWaiting(resp: Response) {
    resp.status == 200 && resp.body.status in InProgress
  }

  /** In-progress polls only add sleeps of the interval raised to two
      seconds: the
      outcome is decided by the first response that is not in progress. */
  lemma {:induction false} MonitorSkipsWaits(interval: real, waits: seq<Response>, t: seq<Fetch>)
    requires forall i :: 0 <= i < |waits| ==> IsWaiting(waits[i])
    ensures var wait := SleepSeconds(interval);
            var r := MonitorJobStatus(interval, Gots(waits) + t);
            && r.outcome == MonitorJobStatus(wait, t).outcome
            && |r.sleeps| >= |waits|
            && (|waits| > 0 ==> r.sleeps == seq(|waits|, _ => wait) + MonitorJobStatus(wait, t).sleeps)
    decreases |waits|
  {
    var wait := SleepSeconds(interval);
    if |waits| == 0 {
      assert Gots(waits) + t == t;
      if |t| > 0 && t[0].Got? && Classify(t[0].response).Wait? {
        assert MonitorJobStatus(interval, t).outcome == MonitorJobStatus(wait, t[1..]).outcome;
        assert MonitorJobStatus(wait, t).outcome == MonitorJobStatus(wait, t[1..]).outcome;
      }
    } else {
      var whole := Gots(waits) + t;
      assert whole[0] == Got(waits[0]);
      assert whole[1..] == Gots(waits[1..]) + t;
      MonitorSkipsWaits(wait, waits[1..], t);
      assert SleepSeconds(wait) == wait;
      var inner := MonitorJobStatus(wait, whole[1..]);
      if |waits| > 1 {
        assert inner.sleeps == seq(|waits| - 1, _ => wait) + MonitorJobStatus(wait, t).sleeps;
      } else {
        assert whole[1..] == t;
      }
    }
  }

  /** Property: after any number of in-progress polls, a completed response
      with data followed by a cursor chain returns the last page's body whose
      `data` is the first page's array followed by every later page's array,
      having slept exactly once per in-progress poll, never under 2 seconds. */
  lemma MonitorReturnsStitched(
    interval: real, waits: seq<Response>, done: Response, pages: seq<Response>, rest: seq<Fetch>)
    requires forall i :: 0 <= i < |waits| ==> IsWaiting(waits[i])
    requires done.status == 200 && done.body.status == "completed" && done.body.data.Some?
    requires IsChain(done.body, Bodies(pages))
    ensures var r := MonitorJobStatus(interval, Gots(waits) + ([Got(done)] + (Gots(pages) + rest)));
            var bodies := Bodies(pages);
            && r.outcome == Returned(LastOf(done.body, bodies).(data := Some(done.body.data.value + ConcatPages(bodies))))
            && |r.sleeps| == |waits|
            && (forall i :: 0 <= i < |r.sleeps| ==> r.sleeps[i] == SleepSeconds(interval))
  {
    var wait := SleepSeconds(interval);
    var t := [Got(done)] + (Gots(pages) + rest);
    MonitorSkipsWaits(interval, waits, t);
    assert t[1..] == Gots(pages) + rest;
    FollowPagesComplete(done.body.data.value, done.body, pages, rest);
    assert MonitorJobStatus(wait, t).sleeps == [];
    assert MonitorJobStatus(interval, t).sleeps == [];
  }

  /** Property: a non-200 status response ends the loop with `handleError`'s
      error, whose status code is the response's status whether or not it is
      one of 402, 408, 409, 500. */
  lemma MonitorRejectsNonOk(interval: real, waits: seq<Response>, bad: Response, rest: seq<Fetch>)
    requires forall i :: 0 <= i < |waits| ==> IsWaiting(waits[i])
    requires bad.status != 200
    ensures var r := MonitorJobStatus(interval, Gots(waits) + ([Got(bad)] + rest));
            && r.outcome == Threw(HandleError(bad, "check crawl status"))
            && r.outcome.error.statusCode == Some(bad.status as int)
            && |r.sleeps| == |waits|
  {
    var wait := SleepSeconds(interval);
    var t := [Got(bad)] + rest;
    MonitorSkipsWaits(interval, waits, t);
    assert MonitorJobStatus(wait, t).sleeps == [];
    assert MonitorJobStatus(interval, t).sleeps == [];
  }

  /** Property: a 200 response whose status is neither "completed" nor in
      progress throws "Crawl job failed or was stopped" with code 500, and a
      "completed" response without `data` throws with code 500. */
  lemma MonitorRejectsStopped(interval: real, waits: seq<Response>, last: Response, rest: seq<Fetch>)
    requires forall i :: 0 <= i < |waits| ==> IsWaiting(waits[i])
    requires last.status == 200 && last.body.status !in InProgress
    requires last.body.status != "completed" || last.body.data.None?
    ensures var r := MonitorJobStatus(interval, Gots(waits) + ([Got(last)] + rest));
            && r.outcome.Threw?
            && r.outcome.error.statusCode == Some(500)
            && (last.body.status == "completed" ==>
                  r.outcome.error.message == "Crawl job completed but no data was returned")
            && (last.body.status != "completed" ==>
                  StartsWith(r.outcome.error.message, "Crawl job failed or was stopped. Status: "))
  {
    var wait := SleepSeconds(interval);
    var t := [Got(last)] + rest;
    MonitorSkipsWaits(interval, waits, t);
    if last.body.status != "completed" {
      Affixes("Crawl job failed or was stopped. Status: ", last.body.status, "");
      assert "Crawl job failed or was stopped. Status: " + last.body.status + ""
             == "Crawl job failed or was stopped. Status: " + last.body.status;
    }
  }

  /** Property: the poller never returns without having seen a completed
      response: a returned result means the responses before it were all
      in-progress polls, one per sleep, followed by a completed one with
      data whose cursor chain was followed to its end. */
  lemma {:induction false} MonitorReturnSound(interval: real, trace: seq<Fetch>)
    requires MonitorJobStatus(interval, trace).outcome.Returned?
    ensures var r := MonitorJobStatus(interval, trace);
            var k := |r.sleeps|;
            && k < |trace|
            && (forall i :: 0 <= i < k ==> trace[i].Got? && IsWaiting(trace[i].response))
            && trace[k].Got?
            && var done := trace[k].response;
               && done.status == 200 && done.body.status == "completed" && done.body.data.Some?
               && var p := FollowPages(done.body.data.value, done.body, trace[k + 1..]);
                  && p.Paged?
                  && r.outcome.body == p.last.(data := Some(p.data))
    decreases |trace|
  {
    var resp := trace[0].response;
    if Classify(resp).Wait? {
      var wait := SleepSeconds(interval);
      MonitorReturnSound(wait, trace[1..]);
      var k' := |MonitorJobStatus(wait, trace[1..]).sleeps|;
      assert trace[k' + 2..] == trace[1..][k' + 1..];
    }
  }

  // ---------------------------------------------------------------------------
  // checkCrawlStatus / checkBatchScrapeStatus
  // ---------------------------------------------------------------------------

  /** The two status endpoints share one body and differ only in wording. */
  datatype JobKind = Crawl | BatchScrape

  function MissingIdMessage(kind: JobKind): string {
    match kind
    case Crawl => "No crawl ID provided"
    case BatchScrape => "No batch scrape ID provided"
  }

  function StatusAction(kind: JobKind): string {
    match kind
    case Crawl => "check crawl status"
    case BatchScrape => "check batch scrape status"
  }

  /** The object `checkCrawlStatus` returns (`expiresAt` kept as received). */
  datatype JobStatus = JobStatus(
    success: bool,
    status: string,
    total: int,
    completed: int,
    creditsUsed: int,
    expiresAt: string,
    next: Option<string>,
    data: Option<seq<Document>>,
    error: Option<string>)

  datatype Checked = Status(job: JobStatus) | CheckThrew(error: Error) | CheckUnfinished

  /** Every field but `data` copied from one status body. */
  function FromFirst(body: StatusBody, data: Option<seq<Document>>): JobStatus {
    JobStatus(body.success, body.status, body.total, body.completed, body.creditsUsed,
              body.expiresAt, body.next, data, body.error)
  }

  /** Whether the `getAllData` branch follows cursors for this first body. */
  predicate Paginates(getAllData: bool, body: StatusBody) {
    getAllData && body.status == "completed" && body.data.Some?
  }

  /** `checkCrawlStatus` and `checkBatchScrapeStatus`. Everything thrown inside its `try`
      (handleError, transport failures, pagination failures) is rethrown as
      a FirecrawlError with the same message and code 500. */
  function CheckStatus(kind: JobKind, id: string, getAllData: bool, trace: seq<Fetch>): (r: Checked)
    ensures id == "" ==> r == CheckThrew(Error(MissingIdMessage(kind), Some(400)))
    ensures id != "" && r.CheckThrew? ==> r.error.statusCode == Some(500)
    ensures r.Status? ==>
              && |trace| > 0 && trace[0].Got? && trace[0].response.status == 200
              && var first := trace[0].response.body;
                 && r.job == FromFirst(first, r.job.data)
                 && (!Paginates(getAllData, first) ==> r.job.data == first.data)
                 && (Paginates(getAllData, first) ==> r.job.data.Some? && first.data.value <= r.job.data.value)
  {
    if id == "" then CheckThrew(Error(MissingIdMessage(kind), Some(400)))
    else if |trace| == 0 then CheckUnfinished
    else
      match trace[0]
      case NoResponse(m) => CheckThrew(Error(m, Some(500)))
      case Got(resp) =>
        if resp.status != 200 then
          CheckThrew(Error(HandleError(resp, StatusAction(kind)).message, Some(500)))
        else
          var first := resp.body;
          if Paginates(getAllData, first) then
            match FollowPages(first.data.value, first, trace[1..])
            case Paged(all, _, _, _) => Status(FromFirst(first, Some(all)))
            case PageThrew(e) => CheckThrew(Error(e.message, Some(500)))
            case PagesUnfinished => CheckUnfinished
          else Status(FromFirst(first, first.data))
  }

  /** Property: with `getAllData` on a completed job, the returned `data` is
      the stitched chain while status, total, next and the rest stay those of
      the first response. */
  lemma CheckStatusStitches(
    kind: JobKind, id: string, first: Response, pages: seq<Response>, rest: seq<Fetch>)
    requires id != ""
    requires first.status == 200 && Paginates(true, first.body)
    requires IsChain(first.body, Bodies(pages))
    ensures CheckStatus(kind, id, true, [Got(first)] + (Gots(pages) + rest))
            == Status(FromFirst(first.body, Some(first.body.data.value + ConcatPages(Bodies(pages)))))
  {
    assert ([Got(first)] + (Gots(pages) + rest))[1..] == Gots(pages) + rest;
    FollowPagesComplete(first.body.data.value, first.body, pages, rest);
  }

  /** Property: unlike `monitorJobStatus`, a non-200 response reaches the
      caller of `checkCrawlStatus` with code 500, whatever its own status;
      only `handleError`'s message survives the rethrow. */
  lemma CheckStatusRewrapsNonOk(kind: JobKind, id: string, getAllData: bool, bad: Response, rest: seq<Fetch>)
    requires id != "" && bad.status != 200
    ensures var r := CheckStatus(kind, id, getAllData, [Got(bad)] + rest);
            && r == CheckThrew(Error(HandleError(bad, StatusAction(kind)).message, Some(500)))
            && (bad.status != 500 ==> r.error.statusCode != HandleError(bad, StatusAction(kind)).statusCode)
  {
  }
}

=== FILE: relevant.dfy ===
/** Post-processing of the relevance ranker's reply in `findRelevantUrls`:
    pick the first text block, capture what lies between the first
    `<relevant_urls>` and the next `</relevant_urls>`, split it into lines,
    trim them, and keep the non-empty, non-placeholder entries with a leading
    "- " removed. The language-model call itself is an input (`Reply`). */
module RelevantUrls {
  import opened Types

  /** A content block of the model's message; `type` and `text` may be absent. */
  datatype Block = Block(kind: Option<string>, text: Option<string>)

  /** What the model call produced: a message's content blocks, or a thrown
      value (with its message when it is an `Error`). */
  datatype Reply = Content(blocks: seq<Block>) | Raised(message: Option<string>)

  /** `FindUrlsResponse`. */
  datatype FindUrlsResponse = FindUrlsResponse(urls: seq<string>, error: Option<string>)

  const OpenTag: string := "<relevant_urls>"
  const CloseTag: string := "</relevant_urls>"
  const InvalidResponse: string := "Invalid response from Claude"
  const MissingTags: string := "Could not find relevant_urls tags in response"
  const UnknownError: string := "Unknown error occurred"

  // ---------------------------------------------------------------------------
  // String.prototype.trim
  // ---------------------------------------------------------------------------

  /** ECMAScript WhiteSpace and LineTerminator code points, which `trim`
      removes from both ends. */
  predicate IsWhitespace(c: char) {
    || c == '\t' || c == '\n' || c == '\U{000B}' || c == '\U{000C}' || c == '\r'
    || c == ' ' || c == '\U{00A0}' || c == '\U{1680}'
    || ('\U{2000}' <= c <= '\U{200A}')
    || c == '\U{2028}' || c == '\U{2029}' || c == '\U{202F}' || c == '\U{205F}'
    || c == '\U{3000}' || c == '\U{FEFF}'
  }

  /** `t` is `s` with a whitespace prefix cut off. */
  predicate CutsLeading(s: string, t: string) {
    && |t| <= |s| && t == s[|s| - |t|..]
    && (forall i :: 0 <= i < |s| - |t| ==> IsWhitespace(s[i]))
  }

  /** `t` is `s` with a whitespace suffix cut off. */
  predicate CutsTrailing(s: string, t: string) {
    && |t| <= |s| && t == s[..|t|]
    && (forall i :: |t| <= i < |s| ==> IsWhitespace(s[i]))
  }

  /** The index of the first non-whitespace character at or after `i`, or
      `|s|` when there is none. */
  function Lead(s: string, i: nat): (a: nat)
    requires i <= |s|
    ensures i <= a <= |s|
    ensures forall k :: i <= k < a ==> IsWhitespace(s[k])
    ensures a < |s| ==> !IsWhitespace(s[a])
    decreases |s| - i
  {
    if i < |s| && IsWhitespace(s[i]) then Lead(s, i + 1) else i
  }

  /** The end of the content of `s[lo..j]`: the least `b` from which only
      whitespace runs up to `j`. */
  function Trail(s: string, lo: nat, j: nat): (b: nat)
    requires lo <= j <= |s|
    ensures lo <= b <= j
    ensures forall k :: b <= k < j ==> IsWhitespace(s[k])
    ensures b > lo ==> !IsWhitespace(s[b - 1])
    decreases j
  {
    if j > lo && IsWhitespace(s[j - 1]) then Trail(s, lo, j - 1) else j
  }

  function TrimStart(s: string): (t: string)
    ensures CutsLeading(s, t)
    ensures |t| > 0 ==> !IsWhitespace(t[0])
  {
    var a := Lead(s, 0);
    assert s[a..][..0] == [];
    s[a..]
  }

  function TrimEnd(s: string): (t: string)
    ensures CutsTrailing(s, t)
    ensures |t| > 0 ==> !IsWhitespace(t[|t| - 1])
  {
    s[..Trail(s, 0, |s|)]
  }

  /** `t` sits in `s` at offset `a` with only whitespace around it. */
  predicate IsTrimOf(t: string, s: string, a: nat) {
    && a + |t| <= |s|
    && s[a..a + |t|] == t
    && (forall i :: 0 <= i < a ==> IsWhitespace(s[i]))
    && (forall i :: a + |t| <= i < |s| ==> IsWhitespace(s[i]))
  }

  /** Trimming a line: the longest infix of `s` with no whitespace at either
      end; only whitespace is removed around it. */
  function Trim(s: string): (t: string)
    ensures |t| > 0 ==> !IsWhitespace(t[0]) && !IsWhitespace(t[|t| - 1])
    ensures IsTrimOf(t, s, |s| - |TrimStart(s)|)
  {
    var a := Lead(s, 0);
    var b := Trail(s, a, |s|);
    s[a..b]
  }

  /** Property: `trim` removes the same characters as trimming the start
      and then the end. */
  lemma TrimIsBothCuts(s: string)
    ensures Trim(s) == TrimEnd(TrimStart(s))
  {
  }

  /** A line trims to "" exactly when it is all whitespace. */
  lemma TrimEmpty(s: string)
    ensures Trim(s) == "" <==> forall i :: 0 <= i < |s| ==> IsWhitespace(s[i])
  {
    var t := Trim(s);
    var a := |s| - |TrimStart(s)|;
    if t != "" {
      assert !IsWhitespace(s[a]);
    }
  }

  // ---------------------------------------------------------------------------
  // String.prototype.split on a single character
  // ---------------------------------------------------------------------------

  /** Splitting on a one-character separator: the maximal pieces between
      separators, always at least one (the empty text gives one empty
      piece). */
  function Split(s: string, sep: char): (parts: seq<string>)
    ensures |parts| >= 1
    ensures forall k :: 0 <= k < |parts| ==> sep !in parts[k]
    decreases |s|
  {
    if |s| == 0 then [""]
    else
      var rest := Split(s[1..], sep);
      if s[0] == sep then [""] + rest
      else [[s[0]] + rest[0]] + rest[1..]
  }

  /** Joining pieces with a separator: the inverse of `Split`. */
  function Join(parts: seq<string>, sep: char): string
    requires |parts| >= 1
    decreases |parts|
  {
    if |parts| == 1 then parts[0] else parts[0] + [sep] + Join(parts[1..], sep)
  }

  /** Splitting loses nothing: joining the pieces back gives the text. */
  lemma {:induction false} JoinSplit(s: string, sep: char)
    ensures Join(Split(s, sep), sep) == s
    decreases |s|
  {
    if |s| > 0 {
      var rest := Split(s[1..], sep);
      JoinSplit(s[1..], sep);
      if s[0] == sep {
        assert [""] + rest == Split(s, sep);
        assert (([""] + rest)[1..]) == rest;
      } else {
        var parts := Split(s, sep);
        assert parts[0] == [s[0]] + rest[0];
        if |rest| == 1 {
          assert parts == [[s[0]] + rest[0]];
        } else {
          assert parts[1..] == rest[1..];
          assert Join(rest, sep) == rest[0] + [sep] + Join(rest[1..], sep);
        }
      }
    }
  }

  /** And splitting a join of separator-free pieces gives the pieces back. */
  lemma {:induction false} SplitJoin(parts: seq<string>, sep: char)
    requires |parts| >= 1
    requires forall k :: 0 <= k < |parts| ==> sep !in parts[k]
    ensures Split(Join(parts, sep), sep) == parts
    decreases |parts|, |parts[0]|
  {
    var p := parts[0];
    if |p| == 0 {
      if |parts| > 1 {
        SplitJoin(parts[1..], sep);
        var s := Join(parts, sep);
        assert s == [sep] + Join(parts[1..], sep);
        assert s[1..] == Join(parts[1..], sep);
        assert parts == [""] + parts[1..];
      }
    } else {
      var parts' := [p[1..]] + parts[1..];
      assert parts'[1..] == parts[1..];
      forall k | 0 <= k < |parts'| ensures sep !in parts'[k] {
        if k == 0 {
          assert forall c :: c in p[1..] ==> c in p;
        }
      }
      SplitJoin(parts', sep);
      var s := Join(parts, sep);
      if |parts| == 1 {
        assert s == p && s[1..] == p[1..];
      } else {
        assert s == p + [sep] + Join(parts[1..], sep);
        assert s[1..] == p[1..] + [sep] + Join(parts[1..], sep);
      }
      assert s[0] == p[0] && s[1..] == Join(parts', sep);
      assert p[0] != sep;
      assert [p[0]] + p[1..] == p;
    }
  }

  // ---------------------------------------------------------------------------
  // The non-greedy regular expression /<relevant_urls>([\s\S]*?)<\/relevant_urls>/
  // ---------------------------------------------------------------------------

  predicate OccursAt(s: string, pat: string, j: nat) {
    j + |pat| <= |s| && s[j..j + |pat|] == pat
  }

  /** `open` occurs at `p` and the first `close` after it at `q`. */
  predicate MatchBetween(text: string, open: string, close: string, p: nat, q: nat) {
    && OccursAt(text, open, p)
    && p + |open| <= q
    && OccursAt(text, close, q)
    && forall k :: p + |open| <= k < q ==> !OccursAt(text, close, k)
  }

  /** The regular expression matches at `p` with its lazy group ending at
      `q`: an opening tag at `p` and the first closing tag after it at `q`. */
  predicate LazyMatchAt(text: string, p: nat, q: nat) {
    MatchBetween(text, OpenTag, CloseTag, p, q)
  }

  /** First occurrence of `pat` at or after `from`. */
  function IndexOf(s: string, pat: string, from: nat): (r: Option<nat>)
    ensures r.Some? ==> from <= r.value && OccursAt(s, pat, r.value)
    ensures r.Some? ==> forall j :: from <= j < r.value ==> !OccursAt(s, pat, j)
    ensures r.None? ==> forall j :: from <= j ==> !OccursAt(s, pat, j)
    decreases |s| - from
  {
    if from + |pat| > |s| then None
    else if s[from..from + |pat|] == pat then Some(from)
    else IndexOf(s, pat, from + 1)
  }

  /** The span `[p, q)` of the regular expression's first match: `p` is where
      the opening tag begins, `q` where the closing tag begins. */
  function FindTagged(text: string): (r: Option<(nat, nat)>)
    ensures r.Some? ==> LazyMatchAt(text, r.value.0, r.value.1)
    ensures r.Some? ==> forall p: nat, q: nat :: p < r.value.0 ==> !LazyMatchAt(text, p, q)
    ensures r.None? ==> forall p: nat, q: nat :: !LazyMatchAt(text, p, q)
  {
    match IndexOf(text, OpenTag, 0)
    case None => None
    case Some(p) =>
      match IndexOf(text, CloseTag, p + |OpenTag|)
      case None =>
        forall p': nat, q: nat
          ensures !LazyMatchAt(text, p', q)
        {
          assert LazyMatchAt(text, p', q) ==> p <= p' && OccursAt(text, CloseTag, q);
        }
        None
      case Some(q) => Some((p, q))
  }

  /** The captured group, when the expression matches. */
  function Capture(text: string): (c: Option<string>)
    ensures c.Some? <==> exists p: nat, q: nat :: LazyMatchAt(text, p, q)
  {
    match FindTagged(text)
    case None => None
    case Some((p, q)) => Some(text[p + |OpenTag|..q])
  }

  // ---------------------------------------------------------------------------
  // Line clean-up
  // ---------------------------------------------------------------------------

  /** A line that starts with a dash and a space loses those two characters;
      any other line is kept as it is. */
  function StripDash(line: string): (r: string)
    ensures StartsWith(line, "- ") ==> "- " + r == line
    ensures !StartsWith(line, "- ") ==> r == line
  {
    if StartsWith(line, "- ") then line[2..] else line
  }

  function MapTrim(lines: seq<string>): (r: seq<string>)
    ensures |r| == |lines|
    ensures forall k :: 0 <= k < |lines| ==> r[k] == Trim(lines[k])
  {
    seq(|lines|, k requires 0 <= k < |lines| => Trim(lines[k]))
  }

  function MapStripDash(lines: seq<string>): (r: seq<string>)
    ensures |r| == |lines|
    ensures forall k :: 0 <= k < |lines| ==> r[k] == StripDash(lines[k])
  {
    seq(|lines|, k requires 0 <= k < |lines| => StripDash(lines[k]))
  }

  /** Keeps, in order, every line other than `dropped`. The chain filters
      twice this way: once with "" (the empty string is falsy) and once with
      the three-dot placeholder. */
  function Without(lines: seq<string>, dropped: string): (r: seq<string>)
    ensures |r| <= |lines|
    ensures forall x :: x in r <==> x in lines && x != dropped
  {
    if |lines| == 0 then []
    else
      assert forall v :: v in lines <==> v == lines[0] || v in lines[1..];
      (if lines[0] == dropped then [] else [lines[0]]) + Without(lines[1..], dropped)
  }

  /** Property: each filter keeps the surviving lines in their order and
      with their multiplicity, and drops every copy of `dropped`. */
  lemma {:induction false} WithoutInOrder(lines: seq<string>, dropped: string)
    ensures var r := Without(lines, dropped);
            && Subsequence(r, lines)
            && forall x :: multiset(r)[x] == if x == dropped then 0 else multiset(lines)[x]
    decreases |lines|
  {
    if |lines| > 0 {
      var tail := Without(lines[1..], dropped);
      WithoutInOrder(lines[1..], dropped);
      assert lines == [lines[0]] + lines[1..];
      assert multiset(lines) == multiset([lines[0]]) + multiset(lines[1..]);
      if lines[0] == dropped {
        assert Without(lines, dropped) == tail;
      } else {
        var r := [lines[0]] + tail;
        assert Without(lines, dropped) == r;
        assert r[0] == lines[0] && r[1..] == tail;
      }
    }
  }

  /** The clean-up chain exactly as the source writes it, stage by stage.
      The parsed entries are never empty and never "...", there are at most
      as many as `\n`-separated lines, and an entry occurs exactly when some
      line cleans to it: a trimmed line starting with "- " gives its
      remainder, any other non-empty trimmed line itself. */
  function ParseLines(captured: string): (out: seq<string>)
    ensures var lines := Split(captured, '\n');
            && |out| <= |lines|
            && (forall k :: 0 <= k < |out| ==> out[k] != "" && out[k] != "...")
            && (forall x :: x in out <==> CleansTo(lines, x))
            && out == KeepClean(lines)
  {
    var lines := Split(captured, '\n');
    ChainIsLineWise(lines);
    KeepCleanEntries(lines);
    KeepCleanMembers(lines);
    Without(MapStripDash(Without(MapTrim(lines), "")), "...")
  }

  /** Reference reading of the chain, one line at a time: what a single
      line contributes, if anything. */
  function CleanLine(line: string): Option<string> {
    var t := Trim(line);
    if t == "" then None
    else if StripDash(t) == "..." then None
    else Some(StripDash(t))
  }

  function KeepClean(lines: seq<string>): seq<string> {
    if |lines| == 0 then []
    else (match CleanLine(lines[0]) case Some(u) => [u] case None => []) + KeepClean(lines[1..])
  }

  lemma MapTrimTail(lines: seq<string>)
    requires |lines| > 0
    ensures MapTrim(lines) == [Trim(lines[0])] + MapTrim(lines[1..])
  {
    assert MapTrim(lines)[1..] == MapTrim(lines[1..]);
  }

  lemma MapStripDashCons(x: string, xs: seq<string>)
    ensures MapStripDash([x] + xs) == [StripDash(x)] + MapStripDash(xs)
  {
    assert MapStripDash([x] + xs)[1..] == MapStripDash(xs);
  }

  lemma WithoutCons(x: string, xs: seq<string>, dropped: string)
    ensures Without([x] + xs, dropped) == (if x == dropped then [] else [x]) + Without(xs, dropped)
  {
    assert ([x] + xs)[1..] == xs;
  }

  /** The staged chain and the line-by-line reading agree on every input. */
  lemma {:induction false} ChainIsLineWise(lines: seq<string>)
    ensures Without(MapStripDash(Without(MapTrim(lines), "")), "...") == KeepClean(lines)
    decreases |lines|
  {
    if |lines| > 0 {
      var t := Trim(lines[0]);
      var trimmed := MapTrim(lines[1..]);
      var tail := Without(trimmed, "");
      var rest := Without(MapStripDash(tail), "...");
      ChainIsLineWise(lines[1..]);
      assert rest == KeepClean(lines[1..]);
      MapTrimTail(lines);
      WithoutCons(t, trimmed, "");
      var head := match CleanLine(lines[0]) case Some(u) => [u] case None => [];
      assert KeepClean(lines) == head + KeepClean(lines[1..]);
      if t == "" {
        assert Without(MapTrim(lines), "") == tail;
        assert head == [];
      } else {
        assert Without(MapTrim(lines), "") == [t] + tail;
        MapStripDashCons(t, tail);
        WithoutCons(StripDash(t), MapStripDash(tail), "...");
        assert Without(MapStripDash([t] + tail), "...")
               == (if StripDash(t) == "..." then [] else [StripDash(t)]) + rest;
      }
    }
  }

  /** A trimmed non-empty line keeps a non-empty remainder after "- ":
      its last character is not the space at index 1. */
  lemma StripDashKeepsContent(t: string)
    requires t != "" && (|t| > 0 ==> !IsWhitespace(t[|t| - 1]))
    ensures StripDash(t) != ""
  {
    if StartsWith(t, "- ") {
      assert t[1] == ' ';
      assert |t| != 2;
    }
  }

  /** Whatever a line contributes is neither empty nor the placeholder. */
  lemma CleanLineEntry(line: string)
    ensures CleanLine(line).Some? ==> CleanLine(line).value != "" && CleanLine(line).value != "..."
  {
    var t := Trim(line);
    if t != "" {
      StripDashKeepsContent(t);
    }
  }

  lemma {:induction false} KeepCleanEntries(lines: seq<string>)
    ensures |KeepClean(lines)| <= |lines|
    ensures forall k :: 0 <= k < |KeepClean(lines)| ==>
              KeepClean(lines)[k] != "" && KeepClean(lines)[k] != "..."
    decreases |lines|
  {
    if |lines| > 0 {
      KeepCleanEntries(lines[1..]);
      CleanLineEntry(lines[0]);
      var head := match CleanLine(lines[0]) case Some(u) => [u] case None => [];
      assert KeepClean(lines) == head + KeepClean(lines[1..]);
    }
  }

  /** Some line of `lines` cleans to `x`. */
  predicate CleansTo(lines: seq<string>, x: string) {
    exists j :: 0 <= j < |lines| && CleanLine(lines[j]) == Some(x)
  }

  lemma {:induction false} KeepCleanMembers(lines: seq<string>)
    ensures forall x :: x in KeepClean(lines) <==> CleansTo(lines, x)
    decreases |lines|
  {
    if |lines| > 0 {
      KeepCleanMembers(lines[1..]);
      var out := KeepClean(lines);
      var head := match CleanLine(lines[0]) case Some(u) => [u] case None => [];
      assert out == head + KeepClean(lines[1..]);
      forall x | CleansTo(lines, x)
        ensures x in out
      {
        var j :| 0 <= j < |lines| && CleanLine(lines[j]) == Some(x);
        if j > 0 {
          assert CleanLine(lines[1..][j - 1]) == Some(x);
          assert CleansTo(lines[1..], x);
        }
      }
      forall x | x in out
        ensures CleansTo(lines, x)
      {
        if x in head {
          assert CleanLine(lines[0]) == Some(x);
        } else {
          assert CleansTo(lines[1..], x);
          var j :| 0 <= j < |lines[1..]| && CleanLine(lines[1..][j]) == Some(x);
          assert CleanLine(lines[j + 1]) == Some(x);
        }
      }
    }
  }

  // ---------------------------------------------------------------------------
  // findRelevantUrls, after the model call
  // ---------------------------------------------------------------------------

  /** The first content block whose type is "text", if there is one. */
  function FirstTextBlock(blocks: seq<Block>): (r: Option<Block>)
    ensures r.Some? ==> r.value in blocks && r.value.kind == Some("text")
    ensures r.Some? ==> exists k :: 0 <= k < |blocks| && blocks[k] == r.value && NoTextBefore(blocks, k)
    ensures r.None? ==> forall b :: b in blocks ==> b.kind != Some("text")
  {
    if |blocks| == 0 then None
    else if blocks[0].kind == Some("text") then Some(blocks[0])
    else FirstTextBlock(blocks[1..])
  }

  /** No block before position `k` is a text block. */
  predicate NoTextBefore(blocks: seq<Block>, k: int)
    requires 0 <= k <= |blocks|
  {
    forall j :: 0 <= j < k ==> blocks[j].kind != Some("text")
  }

  /** The text of the first text block of a reply, when the reply has one
      and that block carries text. */
  function ReplyText(reply: Reply): Option<string> {
    if reply.Raised? then None
    else
      var b := FirstTextBlock(reply.blocks);
      if b.None? then None else b.value.text
  }

  function FindRelevantUrls(reply: Reply): (r: FindUrlsResponse)
    ensures r.error.Some? ==> r.urls == []
    ensures r.error.None? ==> forall k :: 0 <= k < |r.urls| ==> r.urls[k] != "" && r.urls[k] != "..."
    ensures reply.Raised? ==> r.error == Some(reply.message.GetOr(UnknownError))
    ensures reply.Content? ==>
              (r.error == Some(InvalidResponse) <==>
                 var b := FirstTextBlock(reply.blocks); b.None? || b.value.text.None?)
    ensures ReplyText(reply).Some? ==>
              var c := Capture(ReplyText(reply).value);
              && (r.error == Some(MissingTags) <==> c.None? || c.value == "")
              && (c.Some? && c.value != "" ==> r.urls == ParseLines(c.value))
    ensures r.error.None? <==>
              ReplyText(reply).Some? && var c := Capture(ReplyText(reply).value); c.Some? && c.value != ""
    ensures r.error.None? ==>
              var lines := Split(Capture(ReplyText(reply).value).value, '\n');
              forall x :: x in r.urls <==> CleansTo(lines, x)
  {
    match reply
    case Raised(message) => FindUrlsResponse([], Some(message.GetOr(UnknownError)))
    case Content(blocks) =>
      var block := FirstTextBlock(blocks);
      if block.None? || block.value.text.None? then FindUrlsResponse([], Some(InvalidResponse))
      else
        match Capture(block.value.text.value)
        case None => FindUrlsResponse([], Some(MissingTags))
        case Some(captured) =>
          if captured == "" then FindUrlsResponse([], Some(MissingTags))
          else
            FindUrlsResponse(ParseLines(captured), None)
  }

  /** Property: a text block whose text has no opening tag followed by a
      closing tag, or only an empty capture, yields no URLs and the
      missing-tags error. */
  lemma MissingTagsReported(blocks: seq<Block>)
    requires FirstTextBlock(blocks).Some? && FirstTextBlock(blocks).value.text.Some?
    requires var c := Capture(FirstTextBlock(blocks).value.text.value); c.None? || c.value == ""
    ensures FindRelevantUrls(Content(blocks)) == FindUrlsResponse([], Some(MissingTags))
  {
  }

  /** The middle piece of a three-part concatenation sits right after the first. */
  lemma Infix(x: string, y: string, z: string)
    ensures (x + y + z)[|x|..|x| + |y|] == y
  {
  }

  /** The lazy group ends at the first closing tag, so a match position
      determines the end of the group. */
  lemma LazyEndUnique(text: string, p: nat, q: nat, q': nat)
    requires LazyMatchAt(text, p, q) && LazyMatchAt(text, p, q')
    ensures q == q'
  {
    assert q < q' ==> !OccursAt(text, CloseTag, q);
    assert q' < q ==> !OccursAt(text, CloseTag, q');
  }

  /** The pieces of a five-part concatenation sit where their lengths say. */
  lemma Pieces(x: string, y: string, z: string, w: string, v: string)
    ensures var t := x + y + z + w + v;
            && t[|x|..|x| + |y|] == y
            && t[|x| + |y|..|x| + |y| + |z|] == z
            && t[|x| + |y| + |z|..|x| + |y| + |z| + |w|] == w
  {
    var t := x + y + z + w + v;
    Infix(x, y, z + w + v);
    assert t == x + y + (z + w + v);
    Infix(x + y, z, w + v);
    assert t == (x + y) + z + (w + v);
    Infix(x + y + z, w, v);
  }

  /** A match at the first opening tag is the one the expression finds. */
  lemma FirstMatchCaptured(text: string, p: nat, q: nat)
    requires LazyMatchAt(text, p, q)
    requires forall j: nat :: j < p ==> !OccursAt(text, OpenTag, j)
    ensures Capture(text) == Some(text[p + |OpenTag|..q])
  {
    var r := FindTagged(text);
    var (p', q') := r.value;
    assert p' == p by {
      assert OccursAt(text, OpenTag, p');
      assert !(p < p');
    }
    LazyEndUnique(text, p, q, q');
  }

  /** A text built as `before + open + captured + close + after`, with no
      `close` starting inside `captured`, matches between the two tags. */
  lemma PiecesMatch(before: string, open: string, captured: string, close: string, after: string)
    requires var t := before + open + captured + close + after;
             forall k: nat :: |before| + |open| <= k < |before| + |open| + |captured|
               ==> !OccursAt(t, close, k)
    ensures var t := before + open + captured + close + after;
            var p := |before|;
            var q := p + |open| + |captured|;
            && MatchBetween(t, open, close, p, q)
            && t[p + |open|..q] == captured
  {
    Pieces(before, open, captured, close, after);
  }

  /** Property: the captured text is what lies between the first opening
      tag and the first closing tag after it (the group is non-greedy). */
  lemma ParsedFromFirstTags(text: string, before: string, captured: string, after: string)
    requires text == before + OpenTag + captured + CloseTag + after
    requires forall j: nat :: j < |before| ==> !OccursAt(text, OpenTag, j)
    requires forall k: nat :: |before| + |OpenTag| <= k < |before| + |OpenTag| + |captured|
               ==> !OccursAt(text, CloseTag, k)
    ensures Capture(text) == Some(captured)
  {
    var p := |before|;
    var q := p + |OpenTag| + |captured|;
    assert LazyMatchAt(text, p, q) && text[p + |OpenTag|..q] == captured by {
      PiecesMatch(before, OpenTag, captured, CloseTag, after);
    }
    FirstMatchCaptured(text, p, q);
  }
}

=== FILE: smartcrawl.dfy ===
/** `smartCrawl`: rank the site map's links, take the first five ranked
    URLs and scrape those of them not scraped before, and repeat until something is found,
    the scrape budget is spent or no candidates remain.

    The collaborators are inputs: the site map's reply, the language model's
    reply for each round (a function of the round number and the remaining
    candidates, which covers every possible sequence of replies) and the
    scrape reply for each URL (each URL is scraped at most once). The loop
    carries `fuel`, a bound on the number of rounds, because the source does
    not bound them itself. */
module SmartCrawl {
  import opened Types
  import opened RelevantUrls

  type Url = string

  /** The scrape budget when the caller gives no limit. */
  const DefaultLimit: int := 20

  /** The number of found results that ends the loop. */
  const MinFoundResults: int := 1

  /** How many of the ranked URLs one round takes. */
  const BatchSize: nat := 5

  const NoLinksMessage: string := "No links found to scrape."

  /** The `extract` part of a scrape response: `{ data, found }`. */
  datatype Extract = Extract(found: bool, data: Option<string>)

  /** What `scrapeUrl` did for one URL: returned (with its `success` flag
      and optional extract), or threw. */
  datatype ScrapeReply = Scraped(success: bool, extract: Option<Extract>) | ScrapeThrew

  /** A non-null element of `scrapeUrlBatch`'s result. */
  datatype Hit = Hit(url: Url, found: bool, content: string)

  /** An element of `foundData`. */
  datatype Find = Find(url: Url, content: string)

  /** The loop's accumulators. `scraped` is the set `scrapedUrls` in
      insertion order (as `Array.from` lists it); a URL is handed to
      `scrapeUrl` exactly when it is appended here. */
  datatype Progress = Progress(
    remaining: seq<Url>,
    scraped: seq<Url>,
    found: seq<Find>,
    totalScrapes: int)

  predicate NoDup(s: seq<Url>) {
    forall i, j :: 0 <= i < j < |s| ==> s[i] != s[j]
  }

  /** What stays true of the accumulators across the whole run. */
  predicate Inv(st: Progress) {
    && NoDup(st.scraped)
    && st.totalScrapes == |st.scraped|
    && (forall u :: u in st.remaining ==> u !in st.scraped)
    && (forall k :: 0 <= k < |st.found| ==> st.found[k].url in st.scraped)
  }

  // ---------------------------------------------------------------------------
  // scrapeUrlBatch
  // ---------------------------------------------------------------------------

  /** A scrape that succeeded and whose extract says the query was answered. */
  predicate FoundBy(reply: ScrapeReply) {
    reply.Scraped? && reply.success && reply.extract.Some? && reply.extract.value.found
  }

  /** The content a successful scrape reports: the extract's data when it
      is a non-empty string, otherwise the empty string. */
  function ContentOf(reply: ScrapeReply): string {
    if reply.Scraped? && reply.extract.Some? && Truthy(reply.extract.value.data)
    then reply.extract.value.data.value else ""
  }

  /** What one settled scrape contributes: nothing on a throw or an
      unsuccessful reply, otherwise the URL, whether the extract says found
      (false when there is no extract) and the extract's content. */
  function Interpret(url: Url, reply: ScrapeReply): (h: Option<Hit>)
    ensures h.Some? ==> h.value.url == url
    ensures h.Some? <==> reply.Scraped? && reply.success
    ensures (h.Some? && h.value.found) <==> FoundBy(reply)
    ensures h.Some? ==> h.value.content == ContentOf(reply)
  {
    match reply
    case ScrapeThrew => None
    case Scraped(success, extract) =>
      if !success then None
      else
        var found := extract.Some? && extract.value.found;
        Some(Hit(url, found, ContentOf(reply)))
  }

  /** One batch member: skipped when already reserved; otherwise reserved
      (added to `scrapedUrls`, `totalScrapes` incremented) and then fetched. */
  function ScrapeOne(st: Progress, url: Url, scrape: Url -> ScrapeReply): (r: (Progress, Option<Hit>))
    ensures url in st.scraped ==> r == (st, None)
    ensures url !in st.scraped ==>
              && r.0 == st.(scraped := st.scraped + [url], totalScrapes := st.totalScrapes + 1)
              && r.1 == Interpret(url, scrape(url))
  {
    if url in st.scraped then (st, None)
    else
      var reserved := st.(scraped := st.scraped + [url], totalScrapes := st.totalScrapes + 1);
      (reserved, Interpret(url, scrape(url)))
  }

  /** `scrapeUrlBatch`: every member reserved before its fetch; the
      non-null results in batch order (`Promise.all` keeps input order). */
  function ScrapeBatch(st: Progress, urls: seq<Url>, scrape: Url -> ScrapeReply): (r: (Progress, seq<Hit>))
    ensures r.0.remaining == st.remaining && r.0.found == st.found
    ensures st.scraped <= r.0.scraped
    ensures r.0.totalScrapes - st.totalScrapes == |r.0.scraped| - |st.scraped| <= |urls|
    ensures forall u :: u in urls ==> u in r.0.scraped
    ensures forall u :: u in r.0.scraped ==> u in st.scraped || u in urls
    decreases |urls|
  {
    if |urls| == 0 then (st, [])
    else
      var (st1, hit) := ScrapeOne(st, urls[0], scrape);
      var (st2, hits) := ScrapeBatch(st1, urls[1..], scrape);
      assert forall u :: u in urls ==> u == urls[0] || u in urls[1..];
      assert urls[0] in st1.scraped;
      assert forall v :: v in st1.scraped ==> v in st2.scraped by {
        forall v | v in st1.scraped ensures v in st2.scraped {
          var i :| 0 <= i < |st1.scraped| && st1.scraped[i] == v;
          assert st2.scraped[i] == v;
        }
      }
      (st2, (if hit.Some? then [hit.value] else []) + hits)
  }

  /** Property: a batch reserves (and so fetches) each URL that was not
      reserved before exactly once, even when the ranker repeats it inside
      the batch. */
  lemma {:induction false} BatchKeepsNoDup(st: Progress, urls: seq<Url>, scrape: Url -> ScrapeReply)
    requires NoDup(st.scraped)
    ensures NoDup(ScrapeBatch(st, urls, scrape).0.scraped)
    decreases |urls|
  {
    if |urls| > 0 {
      var st1 := ScrapeOne(st, urls[0], scrape).0;
      BatchKeepsNoDup(st1, urls[1..], scrape);
    }
  }

  /** Every hit is for a URL in `after` that was not in `before`. */
  predicate HitsAreNew(hits: seq<Hit>, before: seq<Url>, after: seq<Url>) {
    forall k :: 0 <= k < |hits| ==> hits[k].url in after && hits[k].url !in before
  }

  /** Every hit is what its URL's scrape reply makes of it. */
  predicate HitsFrom(hits: seq<Hit>, scrape: Url -> ScrapeReply) {
    forall k :: 0 <= k < |hits| ==> Interpret(hits[k].url, scrape(hits[k].url)) == Some(hits[k])
  }

  /** Both halves' facts carry over to their concatenation, and a hit new
      after a longer prefix is new after a shorter one. */
  lemma HitsAppend(a: seq<Hit>, b: seq<Hit>, before: seq<Url>, mid: seq<Url>, after: seq<Url>,
                   scrape: Url -> ScrapeReply)
    requires before <= mid
    requires HitsAreNew(a, before, after) && HitsFrom(a, scrape)
    requires HitsAreNew(b, mid, after) && HitsFrom(b, scrape)
    ensures HitsAreNew(a + b, before, after) && HitsFrom(a + b, scrape)
  {
    forall k | |a| <= k < |a + b|
      ensures (a + b)[k].url !in before
    {
      assert (a + b)[k] == b[k - |a|];
    }
  }

  /** Property: every hit a batch reports is for a URL the batch itself
      reserved, and is what that URL's scrape reply makes of it. */
  lemma {:induction false} BatchHitsAreNew(st: Progress, urls: seq<Url>, scrape: Url -> ScrapeReply)
    ensures var r := ScrapeBatch(st, urls, scrape);
            HitsAreNew(r.1, st.scraped, r.0.scraped) && HitsFrom(r.1, scrape)
    decreases |urls|
  {
    if |urls| > 0 {
      var one := ScrapeOne(st, urls[0], scrape);
      var st1, hit := one.0, one.1;
      BatchHitsAreNew(st1, urls[1..], scrape);
      var rest := ScrapeBatch(st1, urls[1..], scrape);
      var st2, hits := rest.0, rest.1;
      var head := if hit.Some? then [hit.value] else [];
      assert HitsAreNew(head, st.scraped, st2.scraped) && HitsFrom(head, scrape) by {
        if hit.Some? {
          assert st1.scraped == st.scraped + [urls[0]];
          assert st2.scraped[|st.scraped|] == urls[0];
        }
      }
      assert ScrapeBatch(st, urls, scrape) == (st2, head + hits);
      HitsAppend(head, hits, st.scraped, st1.scraped, st2.scraped, scrape);
    }
  }

  /** Property: a batch keeps the scrape count equal to the number of
      reserved URLs, with no duplicate, and adds at most one scrape per batch member. */
  lemma BatchPreservesInv(st: Progress, urls: seq<Url>, scrape: Url -> ScrapeReply)
    requires Inv(st)
    ensures var r := ScrapeBatch(st, urls, scrape);
            && NoDup(r.0.scraped)
            && r.0.totalScrapes == |r.0.scraped|
            && r.0.totalScrapes <= st.totalScrapes + |urls|
            && HitsAreNew(r.1, st.scraped, r.0.scraped)
  {
    BatchKeepsNoDup(st, urls, scrape);
    BatchHitsAreNew(st, urls, scrape);
  }

  /** The tail of a duplicate-free list is duplicate-free and lacks its head. */
  lemma NoDupTail(urls: seq<Url>)
    requires |urls| > 0 && NoDup(urls)
    ensures NoDup(urls[1..]) && urls[0] !in urls[1..]
  {
    forall i, j | 0 <= i < j < |urls[1..]| ensures urls[1..][i] != urls[1..][j] {
      assert urls[1..][i] == urls[i + 1] && urls[1..][j] == urls[j + 1];
    }
  }

  lemma AppendHead(a: seq<Url>, s: seq<Url>)
    requires |s| > 0
    ensures a + [s[0]] + s[1..] == a + s
  {
    assert [s[0]] + s[1..] == s;
  }

  /** Property: a batch of distinct URLs none of which was reserved reserves
      all of them, in batch order. */
  lemma {:induction false} BatchFresh(st: Progress, urls: seq<Url>, scrape: Url -> ScrapeReply)
    requires NoDup(urls)
    requires forall u :: u in urls ==> u !in st.scraped
    ensures ScrapeBatch(st, urls, scrape).0.scraped == st.scraped + urls
    decreases |urls|
  {
    if |urls| > 0 {
      var st1 := ScrapeOne(st, urls[0], scrape).0;
      assert st1.scraped == st.scraped + [urls[0]];
      assert ScrapeBatch(st, urls, scrape).0 == ScrapeBatch(st1, urls[1..], scrape).0;
      NoDupTail(urls);
      assert forall u :: u in urls[1..] ==> u !in st1.scraped by {
        assert forall u :: u in urls[1..] ==> u in urls;
      }
      BatchFresh(st1, urls[1..], scrape);
      AppendHead(st.scraped, urls);
    } else {
      assert st.scraped + urls == st.scraped;
    }
  }

  /** Property: a successful scrape of a batch member that was not reserved
      before shows up among the batch's hits. */
  lemma {:induction false} BatchReportsFresh(st: Progress, urls: seq<Url>, scrape: Url -> ScrapeReply, u: Url)
    requires u in urls && u !in st.scraped
    requires Interpret(u, scrape(u)).Some?
    ensures Interpret(u, scrape(u)).value in ScrapeBatch(st, urls, scrape).1
    decreases |urls|
  {
    var one := ScrapeOne(st, urls[0], scrape);
    if urls[0] != u {
      assert u in urls[1..];
      assert u !in one.0.scraped;
      BatchReportsFresh(one.0, urls[1..], scrape, u);
    }
  }

  // ---------------------------------------------------------------------------
  // One round of the loop
  // ---------------------------------------------------------------------------

  /** The candidates left after a round: those neither in the batch nor
      reserved, in their old order. */
  function Prune(remaining: seq<Url>, batch: seq<Url>, scraped: seq<Url>): (r: seq<Url>)
    ensures |r| <= |remaining|
    ensures forall u :: u in r <==> u in remaining && u !in batch && u !in scraped
  {
    if |remaining| == 0 then []
    else
      var u := remaining[0];
      var tail := Prune(remaining[1..], batch, scraped);
      assert forall v :: v in remaining <==> v == u || v in remaining[1..];
      if u !in batch && u !in scraped then [u] + tail else tail
  }

  /** Property: pruning keeps the surviving candidates in their order and
      with their multiplicity, so the ranker sees them as the site map
      listed them. */
  lemma {:induction false} PruneInOrder(remaining: seq<Url>, batch: seq<Url>, scraped: seq<Url>)
    ensures var r := Prune(remaining, batch, scraped);
            && Subsequence(r, remaining)
            && forall u :: multiset(r)[u] == if u in batch || u in scraped then 0 else multiset(remaining)[u]
    decreases |remaining|
  {
    if |remaining| > 0 {
      var u := remaining[0];
      var tail := Prune(remaining[1..], batch, scraped);
      PruneInOrder(remaining[1..], batch, scraped);
      assert remaining == [u] + remaining[1..];
      assert multiset(remaining) == multiset([u]) + multiset(remaining[1..]);
      if u !in batch && u !in scraped {
        var r := [u] + tail;
        assert r[0] == u && r[1..] == tail;
      }
    }
  }

  /** Removing a candidate that is in the batch shortens the list. */
  lemma {:induction false} PruneShrinks(remaining: seq<Url>, batch: seq<Url>, scraped: seq<Url>, u: Url)
    requires u in remaining && u in batch
    ensures |Prune(remaining, batch, scraped)| < |remaining|
    decreases |remaining|
  {
    if remaining[0] != u {
      PruneShrinks(remaining[1..], batch, scraped, u);
    }
  }

  /** The found results among a batch's hits, in batch order: a find for
      exactly the found hits. */
  function Finds(hits: seq<Hit>): (f: seq<Find>)
    ensures |f| <= |hits|
    ensures forall x :: x in f <==> Hit(x.url, true, x.content) in hits
    ensures forall h :: h in hits && h.found ==> Find(h.url, h.content) in f
  {
    if |hits| == 0 then []
    else
      var tail := Finds(hits[1..]);
      assert forall h :: h in hits <==> h == hits[0] || h in hits[1..];
      (if hits[0].found then [Find(hits[0].url, hits[0].content)] else []) + tail
  }

  /** Finds are collected hit by hit: those of two runs of hits, in order. */
  lemma {:induction false} FindsAppend(a: seq<Hit>, b: seq<Hit>)
    ensures Finds(a + b) == Finds(a) + Finds(b)
    decreases |a|
  {
    if |a| == 0 {
      assert a + b == b;
    } else {
      assert (a + b)[0] == a[0];
      assert (a + b)[1..] == a[1..] + b;
      FindsAppend(a[1..], b);
    }
  }

  /** Reference reading of a batch's finds, independent of the scraping:
      one find per batch member whose scrape says found, with that scrape's
      content, in batch order. */
  function FoundIn(batch: seq<Url>, scrape: Url -> ScrapeReply): seq<Find>
    decreases |batch|
  {
    if |batch| == 0 then []
    else
      var u := batch[0];
      (if FoundBy(scrape(u)) then [Find(u, ContentOf(scrape(u)))] else []) + FoundIn(batch[1..], scrape)
  }

  /** Position `k` holds the first batch member whose scrape says found. */
  predicate FirstFoundAt(batch: seq<Url>, scrape: Url -> ScrapeReply, k: int) {
    && 0 <= k < |batch|
    && FoundBy(scrape(batch[k]))
    && forall j :: 0 <= j < k ==> !FoundBy(scrape(batch[j]))
  }

  /** The first reference find is the first found member of the batch. */
  lemma {:induction false} FoundInHead(batch: seq<Url>, scrape: Url -> ScrapeReply, u: Url) returns (k: nat)
    requires u in batch && FoundBy(scrape(u))
    ensures FirstFoundAt(batch, scrape, k)
    ensures |FoundIn(batch, scrape)| > 0
    ensures FoundIn(batch, scrape)[0] == Find(batch[k], ContentOf(scrape(batch[k])))
    decreases |batch|
  {
    if FoundBy(scrape(batch[0])) {
      k := 0;
    } else {
      assert u in batch[1..];
      var k' := FoundInHead(batch[1..], scrape, u);
      k := k' + 1;
      assert batch[k] == batch[1..][k'];
      forall j | 0 <= j < k
        ensures !FoundBy(scrape(batch[j]))
      {
        if j > 0 {
          assert batch[j] == batch[1..][j - 1];
        }
      }
    }
  }

  /** Property: a batch of distinct, unreserved URLs yields its finds in
      batch order: exactly the reference finds. */
  lemma {:induction false} BatchFindsInOrder(st: Progress, urls: seq<Url>, scrape: Url -> ScrapeReply)
    requires NoDup(urls)
    requires forall u :: u in urls ==> u !in st.scraped
    ensures Finds(ScrapeBatch(st, urls, scrape).1) == FoundIn(urls, scrape)
    decreases |urls|
  {
    if |urls| > 0 {
      var (st1, hit) := ScrapeOne(st, urls[0], scrape);
      var (st2, hits) := ScrapeBatch(st1, urls[1..], scrape);
      var head := if hit.Some? then [hit.value] else [];
      assert ScrapeBatch(st, urls, scrape).1 == head + hits;
      FindsAppend(head, hits);
      assert hit == Interpret(urls[0], scrape(urls[0]));
      assert Finds(head) == if FoundBy(scrape(urls[0])) then [Find(urls[0], ContentOf(scrape(urls[0])))] else [] by {
        if hit.Some? {
          assert head[1..] == [];
        }
      }
      NoDupTail(urls);
      assert forall u :: u in urls[1..] ==> u !in st1.scraped by {
        assert forall u :: u in urls[1..] ==> u in urls;
      }
      BatchFindsInOrder(st1, urls[1..], scrape);
    }
  }

  datatype RoundResult = Stop | Next(progress: Progress)

  /** The ranked batch: the first five ranked URLs. */
  function BatchOf(urls: seq<Url>): (b: seq<Url>)
    ensures |b| == Min(BatchSize, |urls|) && b <= urls
    ensures |urls| > 0 ==> |b| > 0 && b[0] == urls[0]
  {
    urls[..Min(BatchSize, |urls|)]
  }

  /** One iteration of the `while` body, given the ranker's response. */
  function Round(st: Progress, ranked: FindUrlsResponse, scrape: Url -> ScrapeReply): (r: RoundResult)
    ensures r.Stop? <==> Truthy(ranked.error) || |ranked.urls| == 0
  {
    if Truthy(ranked.error) || |ranked.urls| == 0 then Stop
    else
      var batch := BatchOf(ranked.urls);
      var (st1, hits) := ScrapeBatch(st, batch, scrape);
      Next(st1.(found := st.found + Finds(hits), remaining := Prune(st.remaining, batch, st1.scraped)))
  }

  /** Property: a round that goes on only appends to the scraped list and to
      the finds, adds at most five scrapes, scrapes the whole batch and
      leaves as candidates exactly the old ones that are neither in the
      batch nor scraped. */
  lemma RoundProgress(st: Progress, ranked: FindUrlsResponse, scrape: Url -> ScrapeReply)
    ensures var r := Round(st, ranked, scrape);
            r.Next? ==>
              && st.scraped <= r.progress.scraped
              && st.found <= r.progress.found
              && |r.progress.scraped| <= |st.scraped| + BatchSize
              && (forall u :: u in BatchOf(ranked.urls) ==> u in r.progress.scraped && u !in r.progress.remaining)
              && (forall u :: u in r.progress.remaining <==>
                    u in st.remaining && u !in BatchOf(ranked.urls) && u !in r.progress.scraped)
  {
  }

  /** Property: a round keeps every accumulator invariant and adds at most
      five scrapes. */
  lemma RoundPreservesInv(st: Progress, ranked: FindUrlsResponse, scrape: Url -> ScrapeReply)
    requires Inv(st)
    ensures var r := Round(st, ranked, scrape);
            r.Next? ==> Inv(r.progress) && r.progress.totalScrapes <= st.totalScrapes + BatchSize
  {
    if !(Truthy(ranked.error) || |ranked.urls| == 0) {
      var batch := BatchOf(ranked.urls);
      var (st1, hits) := ScrapeBatch(st, batch, scrape);
      BatchPreservesInv(st, batch, scrape);
      var found := st.found + Finds(hits);
      forall k | 0 <= k < |found|
        ensures found[k].url in st1.scraped
      {
        if k >= |st.found| {
          var f := Finds(hits)[k - |st.found|];
          assert f in Finds(hits);
          var j :| 0 <= j < |hits| && hits[j] == Hit(f.url, true, f.content);
        } else {
          assert st.found[k].url in st.scraped;
        }
      }
    }
  }

  // ---------------------------------------------------------------------------
  // The loop and the response
  // ---------------------------------------------------------------------------

  /** The `while` condition: the loop goes on exactly while nothing has
      been found, the budget is not spent and candidates remain. */
  predicate Continues(st: Progress, limit: int) {
    |st.found| < MinFoundResults && st.totalScrapes < limit && |st.remaining| > 0
  }

  /** Where a loop ended: the final accumulators and the index of the round
      that was about to run (or did run and stopped) on them. */
  datatype Exit = Exit(fin: Progress, at: nat)

  /** The loop from `st`, running `body` for round `round`, `round + 1`, …
      while the guard holds, for at most `fuel` more rounds; `None` when the
      fuel runs out while the loop would go on. A loop that ends does so
      within its fuel, either because the guard fails on the final state or
      because the round run on that state stopped it. */
  function Loop(st: Progress, limit: int, round: nat, body: (nat, Progress) -> RoundResult,
                fuel: nat): (r: Option<Exit>)
    ensures r.Some? ==> round <= r.value.at <= round + fuel
    ensures r.Some? ==> !Continues(r.value.fin, limit) || body(r.value.at, r.value.fin).Stop?
    decreases fuel
  {
    if !Continues(st, limit) then Some(Exit(st, round))
    else if fuel == 0 then None
    else
      match body(round, st)
      case Stop => Some(Exit(st, round))
      case Next(next) => Loop(next, limit, round + 1, body, fuel - 1)
  }

  /** The loop body `smartCrawl` runs: rank the remaining candidates, then
      scrape the batch. */
  function Body(rank: (nat, seq<Url>) -> FindUrlsResponse, scrape: Url -> ScrapeReply): (body: (nat, Progress) -> RoundResult)
    ensures forall i: nat, st: Progress :: body(i, st) == Round(st, rank(i, st.remaining), scrape)
  {
    (i: nat, st: Progress) => Round(st, rank(i, st.remaining), scrape)
  }

  /** Every round keeps the accumulator invariant. */
  ghost predicate BodyKeepsInv(body: (nat, Progress) -> RoundResult) {
    forall i: nat, st: Progress :: Inv(st) && body(i, st).Next? ==> Inv(body(i, st).progress)
  }

  /** Every round only appends and adds at most five scrapes. */
  ghost predicate BodyGrows(body: (nat, Progress) -> RoundResult) {
    forall i: nat, st: Progress :: body(i, st).Next? ==>
      && st.scraped <= body(i, st).progress.scraped
      && st.found <= body(i, st).progress.found
      && body(i, st).progress.totalScrapes <= st.totalScrapes + BatchSize
  }

  /** A round adds at most one scrape per batch member. */
  lemma RoundBudget(st: Progress, ranked: FindUrlsResponse, scrape: Url -> ScrapeReply)
    ensures var r := Round(st, ranked, scrape);
            r.Next? ==> r.progress.totalScrapes <= st.totalScrapes + BatchSize
  {
  }

  /** Property: the rounds of `smartCrawl` keep the invariant and only grow
      the accumulators. */
  lemma RoundsBehave(rank: (nat, seq<Url>) -> FindUrlsResponse, scrape: Url -> ScrapeReply)
    ensures BodyKeepsInv(Body(rank, scrape)) && BodyGrows(Body(rank, scrape))
  {
    var body := Body(rank, scrape);
    forall i: nat, st: Progress
      ensures Inv(st) && body(i, st).Next? ==> Inv(body(i, st).progress)
      ensures body(i, st).Next? ==>
                && st.scraped <= body(i, st).progress.scraped
                && st.found <= body(i, st).progress.found
                && body(i, st).progress.totalScrapes <= st.totalScrapes + BatchSize
    {
      var ranked := rank(i, st.remaining);
      RoundProgress(st, ranked, scrape);
      RoundBudget(st, ranked, scrape);
      if Inv(st) {
        RoundPreservesInv(st, ranked, scrape);
      }
    }
  }

  /** Property: the loop keeps the accumulator invariant. */
  lemma {:induction false} LoopKeepsInv(st: Progress, limit: int, round: nat, body: (nat, Progress) -> RoundResult, fuel: nat)
    requires BodyKeepsInv(body) && Inv(st)
    requires Loop(st, limit, round, body, fuel).Some?
    ensures Inv(Loop(st, limit, round, body, fuel).value.fin)
    decreases fuel
  {
    if Continues(st, limit) && body(round, st).Next? {
      LoopKeepsInv(body(round, st).progress, limit, round + 1, body, fuel - 1);
    }
  }

  /** Property: the loop only appends to the scraped list and the finds, and
      since the budget is only checked before a batch, it can overshoot
      `limit` by at most four scrapes (a batch holds five). */
  lemma {:induction false} LoopGrows(st: Progress, limit: int, round: nat, body: (nat, Progress) -> RoundResult, fuel: nat)
    requires BodyGrows(body)
    requires Loop(st, limit, round, body, fuel).Some?
    ensures var fin := Loop(st, limit, round, body, fuel).value.fin;
            && st.scraped <= fin.scraped
            && st.found <= fin.found
            && fin.totalScrapes <= Max(st.totalScrapes, limit + BatchSize - 1)
    decreases fuel
  {
    if Continues(st, limit) && body(round, st).Next? {
      LoopGrows(body(round, st).progress, limit, round + 1, body, fuel - 1);
    }
  }

  /** A round that goes on hands the loop over to the next state. */
  lemma LoopStep(st: Progress, limit: int, round: nat, body: (nat, Progress) -> RoundResult, fuel: nat)
    requires Continues(st, limit) && fuel > 0 && body(round, st).Next?
    ensures Loop(st, limit, round, body, fuel) == Loop(body(round, st).progress, limit, round + 1, body, fuel - 1)
  {
  }

  /** A loop whose first round goes on to a state the guard stops ends
      there. */
  lemma LoopFirstRound(st: Progress, limit: int, round: nat, body: (nat, Progress) -> RoundResult, fuel: nat)
    requires Continues(st, limit) && fuel > 0 && body(round, st).Next?
    requires !Continues(body(round, st).progress, limit)
    ensures Loop(st, limit, round, body, fuel) == Some(Exit(body(round, st).progress, round + 1))
  {
  }

  /** Property: a state that every round maps to itself, and that the guard
      lets through, keeps the loop going for ever. */
  lemma {:induction false} FixedPointNeverExits(st: Progress, limit: int, round: nat, body: (nat, Progress) -> RoundResult, fuel: nat)
    requires Continues(st, limit)
    requires forall i: nat :: body(i, st) == Next(st)
    ensures Loop(st, limit, round, body, fuel).None?
    decreases fuel
  {
    if fuel > 0 {
      FixedPointNeverExits(st, limit, round + 1, body, fuel - 1);
    }
  }

  /** The ranker only ever puts first a URL it was offered. */
  ghost predicate RanksOffered(rank: (nat, seq<Url>) -> FindUrlsResponse) {
    forall i: nat, rem: seq<Url> :: |rank(i, rem).urls| > 0 ==> rank(i, rem).urls[0] in rem
  }

  /** Every round that goes on removes at least one candidate. */
  ghost predicate BodyShrinks(body: (nat, Progress) -> RoundResult) {
    forall i: nat, st: Progress :: body(i, st).Next? ==> |body(i, st).progress.remaining| < |st.remaining|
  }

  /** Property: with a ranker that puts an offered URL first, every round
      removes at least that URL from the candidates. */
  lemma RankingOfferedShrinks(rank: (nat, seq<Url>) -> FindUrlsResponse, scrape: Url -> ScrapeReply)
    requires RanksOffered(rank)
    ensures BodyShrinks(Body(rank, scrape))
  {
    var body := Body(rank, scrape);
    forall i: nat, st: Progress | body(i, st).Next?
      ensures |body(i, st).progress.remaining| < |st.remaining|
    {
      var ranked := rank(i, st.remaining);
      var batch := BatchOf(ranked.urls);
      var next := body(i, st).progress;
      assert next.remaining == Prune(st.remaining, batch, next.scraped);
      assert ranked.urls[0] in st.remaining && ranked.urls[0] in batch;
      PruneShrinks(st.remaining, batch, next.scraped, ranked.urls[0]);
    }
  }

  /** Property: when every round removes a candidate, the loop ends within as
      many rounds as there are candidates. */
  lemma {:induction false} ShrinkingLoopEnds(st: Progress, limit: int, round: nat, body: (nat, Progress) -> RoundResult, fuel: nat)
    requires BodyShrinks(body)
    requires fuel >= |st.remaining|
    ensures Loop(st, limit, round, body, fuel).Some?
    decreases fuel
  {
    if Continues(st, limit) && body(round, st).Next? {
      ShrinkingLoopEnds(body(round, st).progress, limit, round + 1, body, fuel - 1);
    }
  }

  datatype Stats = Stats(totalScrapes: int, foundResults: int)

  /** The object `smartCrawl` resolves to; absent keys are `None`. */
  datatype CrawlResponse = CrawlResponse(
    success: bool,
    relevantUrls: Option<seq<Url>>,
    data: Option<seq<Find>>,
    stats: Option<Stats>,
    error: Option<string>)

  /** The site map's reply, or the error `mapUrl` threw. */
  datatype MapReply = Mapped(success: bool, links: Option<seq<Url>>) | MapThrew(message: string)

  /** `Running`: the rounds allowed by the fuel were spent while the loop
      would have continued. */
  datatype Outcome = Finished(response: CrawlResponse) | Running

  function Start(links: seq<Url>): (st: Progress)
    ensures Inv(st)
  {
    Progress(links, [], [], 0)
  }

  /** The response after a normal exit: only the first find is returned. */
  function Report(fin: Progress): (resp: CrawlResponse)
    ensures resp.success && resp.error.None?
    ensures resp.relevantUrls == Some(fin.scraped)
    ensures resp.stats == Some(Stats(fin.totalScrapes, |fin.found|))
    ensures resp.data.Some? && |resp.data.value| <= 1
    ensures |resp.data.value| == 1 <==> |fin.found| > 0
    ensures |fin.found| > 0 ==> resp.data.value[0] == fin.found[0]
  {
    CrawlResponse(true, Some(fin.scraped),
                  Some(if |fin.found| > 0 then [fin.found[0]] else []),
                  Some(Stats(fin.totalScrapes, |fin.found|)), None)
  }

  function LimitOf(limit: Option<int>): int {
    limit.GetOr(DefaultLimit)
  }

  /** Each round's model reply, as `findRelevantUrls` parses it. */
  function Ranking(ranker: (nat, seq<Url>) -> Reply): (rank: (nat, seq<Url>) -> FindUrlsResponse)
    ensures forall i: nat, rem: seq<Url> :: rank(i, rem) == FindRelevantUrls(ranker(i, rem))
  {
    (i: nat, rem: seq<Url>) => FindRelevantUrls(ranker(i, rem))
  }

  /** `smartCrawl` with an optional scrape limit, given each round's parsed
      ranking. */
  function Crawl(site: MapReply, limit: Option<int>, rank: (nat, seq<Url>) -> FindUrlsResponse,
                 scrape: Url -> ScrapeReply, fuel: nat): (r: Outcome)
    ensures site.MapThrew? ==>
              r == Finished(CrawlResponse(false, Some([]), Some([]), Some(Stats(0, 0)), Some(site.message)))
    ensures site.Mapped? && (!site.success || site.links.None?) ==>
              r == Finished(CrawlResponse(false, None, None, None, Some(NoLinksMessage)))
    ensures site.Mapped? && site.success && site.links.Some? && r.Finished? ==> r.response.success
    ensures r.Finished? && r.response.success ==>
              && r.response.relevantUrls.Some? && NoDup(r.response.relevantUrls.value)
              && r.response.stats.Some?
              && r.response.stats.value.totalScrapes == |r.response.relevantUrls.value|
              && r.response.stats.value.totalScrapes <= Max(0, LimitOf(limit) + BatchSize - 1)
              && r.response.data.Some? && |r.response.data.value| <= 1
              && (|r.response.data.value| == 1 <==> r.response.stats.value.foundResults > 0)
              && (forall k :: 0 <= k < |r.response.data.value| ==>
                    r.response.data.value[k].url in r.response.relevantUrls.value)
  {
    match site
    case MapThrew(message) =>
      Finished(CrawlResponse(false, Some([]), Some([]), Some(Stats(0, 0)), Some(message)))
    case Mapped(success, links) =>
      if !success || links.None? then
        Finished(CrawlResponse(false, None, None, None, Some(NoLinksMessage)))
      else
        var body := Body(rank, scrape);
        match Loop(Start(links.value), LimitOf(limit), 0, body, fuel)
        case None => Running
        case Some(exit) =>
          RoundsBehave(rank, scrape);
          LoopKeepsInv(Start(links.value), LimitOf(limit), 0, body, fuel);
          LoopGrows(Start(links.value), LimitOf(limit), 0, body, fuel);
          Finished(Report(exit.fin))
  }

  /** No entry is empty or the three-dot placeholder. */
  predicate CleanUrls(s: seq<Url>) {
    forall k :: 0 <= k < |s| ==> s[k] != "" && s[k] != "..."
  }

  /** Every round keeps the reserved URLs clean. */
  ghost predicate BodyKeepsClean(body: (nat, Progress) -> RoundResult) {
    forall i: nat, st: Progress :: CleanUrls(st.scraped) && body(i, st).Next? ==> CleanUrls(body(i, st).progress.scraped)
  }

  /** A round whose ranking lists only clean URLs, and none when it reports
      an error, reserves only clean URLs. */
  lemma RoundKeepsClean(st: Progress, ranked: FindUrlsResponse, scrape: Url -> ScrapeReply)
    requires CleanUrls(st.scraped)
    requires ranked.error.Some? ==> ranked.urls == []
    requires ranked.error.None? ==> CleanUrls(ranked.urls)
    ensures var r := Round(st, ranked, scrape);
            r.Next? ==> CleanUrls(r.progress.scraped)
  {
    if !(Truthy(ranked.error) || |ranked.urls| == 0) {
      var batch := BatchOf(ranked.urls);
      var next := ScrapeBatch(st, batch, scrape).0;
      forall k | 0 <= k < |next.scraped|
        ensures next.scraped[k] != "" && next.scraped[k] != "..."
      {
        var u := next.scraped[k];
        assert u in next.scraped;
        if u in batch {
          var j :| 0 <= j < |batch| && batch[j] == u;
          assert ranked.urls[j] == u;
        } else {
          var j :| 0 <= j < |st.scraped| && st.scraped[j] == u;
        }
      }
    }
  }

  /** Property: the rounds driven by `findRelevantUrls` keep the reserved
      URLs clean. */
  lemma RankingKeepsClean(ranker: (nat, seq<Url>) -> Reply, scrape: Url -> ScrapeReply)
    ensures BodyKeepsClean(Body(Ranking(ranker), scrape))
  {
    var body := Body(Ranking(ranker), scrape);
    forall i: nat, st: Progress | CleanUrls(st.scraped) && body(i, st).Next?
      ensures CleanUrls(body(i, st).progress.scraped)
    {
      var ranked := FindRelevantUrls(ranker(i, st.remaining));
      assert body(i, st) == Round(st, ranked, scrape);
      RoundKeepsClean(st, ranked, scrape);
    }
  }

  /** The loop keeps the reserved URLs clean. */
  lemma {:induction false} LoopKeepsClean(st: Progress, limit: int, round: nat, body: (nat, Progress) -> RoundResult, fuel: nat)
    requires BodyKeepsClean(body) && CleanUrls(st.scraped)
    requires Loop(st, limit, round, body, fuel).Some?
    ensures CleanUrls(Loop(st, limit, round, body, fuel).value.fin.scraped)
    decreases fuel
  {
    if Continues(st, limit) && body(round, st).Next? {
      LoopKeepsClean(body(round, st).progress, limit, round + 1, body, fuel - 1);
    }
  }

  /** `smartCrawl` with the model's raw replies: each round's reply goes
      through `findRelevantUrls` first. A run fails only when the site map
      does, and every URL it lists came out of a parsed ranking, so none is
      empty or "...". */
  function Run(site: MapReply, limit: Option<int>, ranker: (nat, seq<Url>) -> Reply,
               scrape: Url -> ScrapeReply, fuel: nat): (r: Outcome)
    ensures r.Finished? && !r.response.success ==> site.MapThrew? || !site.success || site.links.None?
    ensures r.Finished? && r.response.success ==>
              r.response.relevantUrls.Some? && CleanUrls(r.response.relevantUrls.value)
  {
    var rank := Ranking(ranker);
    if site.Mapped? && site.success && site.links.Some? then
      var links := site.links.value;
      CrawlRunsLoop(links, limit, rank, scrape, fuel);
      if Loop(Start(links), LimitOf(limit), 0, Body(rank, scrape), fuel).Some? then
        RankingKeepsClean(ranker, scrape);
        LoopKeepsClean(Start(links), LimitOf(limit), 0, Body(rank, scrape), fuel);
        Crawl(site, limit, rank, scrape, fuel)
      else
        Crawl(site, limit, rank, scrape, fuel)
    else
      Crawl(site, limit, rank, scrape, fuel)
  }

  // ---------------------------------------------------------------------------
  // Whole runs
  // ---------------------------------------------------------------------------

  /** A run over a site map with links is its loop from the initial state. */
  lemma CrawlRunsLoop(links: seq<Url>, limit: Option<int>, rank: (nat, seq<Url>) -> FindUrlsResponse,
                      scrape: Url -> ScrapeReply, fuel: nat)
    ensures var l := Loop(Start(links), LimitOf(limit), 0, Body(rank, scrape), fuel);
            Crawl(Mapped(true, Some(links)), limit, rank, scrape, fuel)
              == if l.None? then Running else Finished(Report(l.value.fin))
  {
  }

  /** Property: a run whose ranker puts an offered URL first finishes once
      the fuel covers one round per site-map link. */
  lemma CrawlWithOfferedRankingFinishes(links: seq<Url>, limit: Option<int>, rank: (nat, seq<Url>) -> FindUrlsResponse,
                                        scrape: Url -> ScrapeReply, fuel: nat)
    requires RanksOffered(rank)
    requires fuel >= |links|
    ensures Crawl(Mapped(true, Some(links)), limit, rank, scrape, fuel).Finished?
  {
    RankingOfferedShrinks(rank, scrape);
    ShrinkingLoopEnds(Start(links), LimitOf(limit), 0, Body(rank, scrape), fuel);
  }

  /** Property: when the first ranking fails or ranks nothing, the run ends
      at once, successfully, having scraped nothing. */
  lemma EmptyRankingEndsCleanly(links: seq<Url>, limit: Option<int>, rank: (nat, seq<Url>) -> FindUrlsResponse,
                                scrape: Url -> ScrapeReply, fuel: nat)
    requires fuel > 0
    requires |rank(0, links).urls| == 0
    ensures Crawl(Mapped(true, Some(links)), limit, rank, scrape, fuel)
            == Finished(CrawlResponse(true, Some([]), Some([]), Some(Stats(0, 0)), None))
  {
    var body := Body(rank, scrape);
    assert body(0, Start(links)).Stop?;
  }

  /** The first round scrapes the whole batch and records the batch's finds
      in batch order; when a member is found there is at least one. */
  lemma FirstRoundFinds(links: seq<Url>, ranked: FindUrlsResponse, scrape: Url -> ScrapeReply, u: Url)
    requires !Truthy(ranked.error) && NoDup(BatchOf(ranked.urls))
    requires u in BatchOf(ranked.urls) && FoundBy(scrape(u))
    ensures var r := Round(Start(links), ranked, scrape);
            && r.Next?
            && r.progress.scraped == BatchOf(ranked.urls)
            && r.progress.totalScrapes == |BatchOf(ranked.urls)|
            && r.progress.found == FoundIn(BatchOf(ranked.urls), scrape)
            && |r.progress.found| > 0
  {
    var batch := BatchOf(ranked.urls);
    var st := Start(links);
    var (st1, hits) := ScrapeBatch(st, batch, scrape);
    BatchFresh(st, batch, scrape);
    BatchPreservesInv(st, batch, scrape);
    BatchFindsInOrder(st, batch, scrape);
    assert st.found + Finds(hits) == Finds(hits);
    var k := FoundInHead(batch, scrape, u);
  }

  /** The loop of such a run stops after the first round. */
  lemma QuotaLoop(links: seq<Url>, limit: int, rank: (nat, seq<Url>) -> FindUrlsResponse,
                  scrape: Url -> ScrapeReply, fuel: nat, u: Url) returns (next: Progress)
    requires fuel > 0 && |links| > 0 && limit > 0
    requires !Truthy(rank(0, links).error) && NoDup(BatchOf(rank(0, links).urls))
    requires u in BatchOf(rank(0, links).urls) && FoundBy(scrape(u))
    ensures Loop(Start(links), limit, 0, Body(rank, scrape), fuel) == Some(Exit(next, 1))
    ensures next.scraped == BatchOf(rank(0, links).urls)
    ensures next.totalScrapes == |next.scraped|
    ensures next.found == FoundIn(next.scraped, scrape) && |next.found| > 0
  {
    var body := Body(rank, scrape);
    FirstRoundFinds(links, rank(0, links), scrape, u);
    next := body(0, Start(links)).progress;
    LoopFirstRound(Start(links), limit, 0, body, fuel);
  }

  /** Property: when some member of the first batch is found, the run ends
      after that one round: every member of the batch was scraped once, and
      the single returned result is the find of the first found member in
      batch order, with that member's content. */
  lemma QuotaMetInFirstRound(links: seq<Url>, limit: Option<int>, rank: (nat, seq<Url>) -> FindUrlsResponse,
                             scrape: Url -> ScrapeReply, fuel: nat, u: Url)
    requires fuel > 0 && |links| > 0 && LimitOf(limit) > 0
    requires !Truthy(rank(0, links).error) && NoDup(BatchOf(rank(0, links).urls))
    requires u in BatchOf(rank(0, links).urls) && FoundBy(scrape(u))
    ensures var batch := BatchOf(rank(0, links).urls);
            var r := Crawl(Mapped(true, Some(links)), limit, rank, scrape, fuel);
            && r.Finished? && r.response.success
            && r.response.relevantUrls == Some(batch)
            && r.response.stats.Some? && r.response.stats.value.totalScrapes == |batch|
            && r.response.data.Some? && |r.response.data.value| == 1
            && exists k :: FirstFoundAt(batch, scrape, k)
                           && r.response.data.value[0] == Find(batch[k], ContentOf(scrape(batch[k])))
  {
    var batch := BatchOf(rank(0, links).urls);
    var next := QuotaLoop(links, LimitOf(limit), rank, scrape, fuel, u);
    CrawlRunsLoop(links, limit, rank, scrape, fuel);
    var resp := Report(next);
    assert Crawl(Mapped(true, Some(links)), limit, rank, scrape, fuel) == Finished(resp);
    var k := FoundInHead(batch, scrape, u);
    assert resp.data.value[0] == Find(batch[k], ContentOf(scrape(batch[k])));
  }

  /** The state a stuck run settles in: the offered candidate left, the
      ranked one scraped. */
  function StuckState(a: Url, z: Url): Progress {
    Progress([a], [z], [], 1)
  }

  /** The first round of a stuck run scrapes the ranked URL and keeps the
      offered one. */
  lemma StuckFirstRound(a: Url, z: Url, rank: (nat, seq<Url>) -> FindUrlsResponse, scrape: Url -> ScrapeReply)
    requires a != z && !FoundBy(scrape(z))
    requires rank(0, [a]) == FindUrlsResponse([z], None)
    ensures Round(Start([a]), rank(0, [a]), scrape) == Next(StuckState(a, z))
  {
    assert BatchOf([z]) == [z];
    var (s, hits) := ScrapeBatch(Start([a]), [z], scrape);
    BatchHitsAreNew(Start([a]), [z], scrape);
    assert |Finds(hits)| == 0;
    PruneKeepsOther(a, z);
  }

  lemma PruneKeepsOther(a: Url, z: Url)
    requires a != z
    ensures Prune([a], [z], [z]) == [a]
  {
    assert Prune([a][1..], [z], [z]) == [];
  }

  /** Every later round of a stuck run skips the ranked URL and changes
      nothing. */
  lemma StuckLaterRound(a: Url, z: Url, ranked: FindUrlsResponse, scrape: Url -> ScrapeReply)
    requires a != z && ranked == FindUrlsResponse([z], None)
    ensures Round(StuckState(a, z), ranked, scrape) == Next(StuckState(a, z))
  {
    assert BatchOf([z]) == [z];
    assert ScrapeOne(StuckState(a, z), z, scrape) == (StuckState(a, z), None);
    assert [z][1..] == [];
    assert ScrapeBatch(StuckState(a, z), [], scrape) == (StuckState(a, z), []);
    var r := ScrapeBatch(StuckState(a, z), [z], scrape);
    assert r.0 == StuckState(a, z);
    assert r.1 == [] + [] == [];
    PruneKeepsOther(a, z);
  }

  /** A loop whose first round leads to a state every later round keeps
      never ends. */
  lemma StuckLoop(st0: Progress, st1: Progress, limit: int, body: (nat, Progress) -> RoundResult, fuel: nat)
    requires Continues(st0, limit) && Continues(st1, limit)
    requires body(0, st0) == Next(st1)
    requires forall i: nat :: body(i, st1) == Next(st1)
    ensures Loop(st0, limit, 0, body, fuel).None?
  {
    if fuel > 0 {
      LoopStep(st0, limit, 0, body, fuel);
      FixedPointNeverExits(st1, limit, 1, body, fuel - 1);
    }
  }

  /** Property: a ranker that keeps ranking a URL the site map does not
      list, whose page never answers the query, keeps the loop going for
      ever: after the first round the URL is skipped as already scraped, the
      budget stops growing and the candidate list never shrinks. */
  lemma StuckRankerNeverFinishes(a: Url, z: Url, limit: Option<int>, rank: (nat, seq<Url>) -> FindUrlsResponse,
                                 scrape: Url -> ScrapeReply, fuel: nat)
    requires a != z && LimitOf(limit) > 1 && !FoundBy(scrape(z))
    requires forall i: nat :: rank(i, [a]) == FindUrlsResponse([z], None)
    ensures Crawl(Mapped(true, Some([a])), limit, rank, scrape, fuel) == Running
  {
    var body := Body(rank, scrape);
    var st0, st1 := Start([a]), StuckState(a, z);
    assert body(0, st0) == Next(st1) by {
      StuckFirstRound(a, z, rank, scrape);
    }
    assert forall i: nat :: body(i, st1) == Next(st1) by {
      forall i: nat ensures body(i, st1) == Next(st1) {
        StuckLaterRound(a, z, rank(i, [a]), scrape);
      }
    }
    StuckLoop(st0, st1, LimitOf(limit), body, fuel);
    CrawlRunsLoop([a], limit, rank, scrape, fuel);
  }

  /** Property: when the model call of the first round throws, the error is
      swallowed into the ranking and the run ends at once, successfully,
      having scraped nothing. */
  lemma RankerFailureEndsCleanly(links: seq<Url>, limit: Option<int>, ranker: (nat, seq<Url>) -> Reply,
                                 scrape: Url -> ScrapeReply, fuel: nat)
    requires fuel > 0 && ranker(0, links).Raised?
    ensures Run(Mapped(true, Some(links)), limit, ranker, scrape, fuel)
            == Finished(CrawlResponse(true, Some([]), Some([]), Some(Stats(0, 0)), None))
  {
    assert Ranking(ranker)(0, links).urls == [];
    EmptyRankingEndsCleanly(links, limit, Ranking(ranker), scrape, fuel);
  }
}

=== FILE: types.dfy ===
/** Values shared by every part of the client model. */
module Types {

  /** A JavaScript property that may be absent. */
  datatype Option<+T> = None | Some(value: T) {

    function GetOr(default: T): T {
      match this
      case Some(v) => v
      case None => default
    }
  }

  /** One element of a result array. Documents are opaque payload to this
      client; `Undefined` is JavaScript's `undefined`, which
      `Array.prototype.concat` appends when a page carries no `data` array. */
  datatype Document = Document(payload: string) | Undefined

  /** A thrown error. A `FirecrawlError` carries a status code; a raw
      transport failure (no HTTP response at all) does not. */
  datatype Error = Error(message: string, statusCode: Option<int>)

  /** JavaScript truthiness of an optional string: absent and "" are falsy. */
  predicate Truthy(s: Option<string>) {
    s.Some? && s.value != ""
  }

  function Max(a: int, b: int): int {
    if a < b then b else a
  }

  function Min(a: int, b: int): int {
    if a < b then a else b
  }

  /** Prefix and suffix tests on strings. */
  predicate StartsWith(s: string, prefix: string) {
    |prefix| <= |s| && s[..|prefix|] == prefix
  }

  predicate EndsWith(s: string, suffix: string) {
    |suffix| <= |s| && s[|s| - |suffix|..] == suffix
  }

  /** `a` is `b` with some elements left out, the rest in their order. */
  predicate Subsequence<T(==)>(a: seq<T>, b: seq<T>)
    decreases |b|
  {
    || a == []
    || (&& b != []
        && ((a[0] == b[0] && Subsequence(a[1..], b[1..])) || Subsequence(a, b[1..])))
  }
}

=== FILE: watcher.dfy ===
/** The push channel: the message and frame handlers a `CrawlWatcher`
    installs on its WebSocket. The watcher's mutable fields become an
    immutable `State`, and each handler a step returning the new state, the
    events dispatched (in order) and whether the client itself called
    `close()` on the socket. */
module CrawlWatcher {
  import opened Types

  /** The watcher's mirrored job status and its document buffer. */
  datatype State = State(status: string, data: seq<Document>)

  /** A freshly constructed watcher. */
  const Initial: State := State("scraping", [])

  /** A decoded message envelope, by its `type` field. `Other` stands for
      every `type` that is none of the four the handler knows. */
  datatype Message =
    | Done
    | Failure(error: Option<string>)
    | Catchup(status: string, docs: Option<seq<Document>>)
    | Doc(doc: Document)
    | Other(tag: string)

  /** The three event kinds dispatched to listeners. The buffer carried by
      `done` and `error` is the one held at dispatch time. */
  datatype Event =
    | DocumentEvent(doc: Document)
    | DoneEvent(status: string, data: seq<Document>)
    | ErrorEvent(status: string, data: seq<Document>, error: Option<string>)

  /** What the socket delivers: a text message (already parsed), a non-text
      message, a close whose reason is an envelope, or a transport error. */
  datatype Frame = Text(msg: Message) | Binary | CloseFrame(reason: Message) | SocketError

  /** `clientCloses` records the client's own `close()` call. It says
      nothing about a connection the server or the network closed, which
      arrives as a `CloseFrame`. */
  datatype Step = Step(state: State, events: seq<Event>, clientCloses: bool)

  /** One `document` event per buffered document, in buffer order. */
  function Replay(docs: seq<Document>): (events: seq<Event>)
    ensures |events| == |docs|
    ensures forall i :: 0 <= i < |docs| ==> events[i] == DocumentEvent(docs[i])
  {
    seq(|docs|, i requires 0 <= i < |docs| => DocumentEvent(docs[i]))
  }

  /** The constructor's `messageHandler`. */
  function HandleMessage(st: State, msg: Message): (r: Step)
    ensures !r.clientCloses
    ensures st.data <= r.state.data
    ensures msg.Done? ==>
              && r.state == State("completed", st.data)
              && r.events == [DoneEvent("completed", st.data)]
    ensures msg.Failure? ==>
              && r.state == State("failed", st.data)
              && r.events == [ErrorEvent("failed", st.data, msg.error)]
    ensures msg.Catchup? ==>
              && r.state == State(msg.status, st.data + msg.docs.GetOr([]))
              && |r.events| == |st.data| + |msg.docs.GetOr([])|
              && forall i :: 0 <= i < |r.events| ==> r.events[i] == DocumentEvent(r.state.data[i])
    ensures msg.Doc? ==> r.state == st && r.events == [DocumentEvent(msg.doc)]
    ensures msg.Other? ==> r.state == st && r.events == []
  {
    match msg
    case Done =>
      var s := st.(status := "completed");
      Step(s, [DoneEvent(s.status, s.data)], false)
    case Failure(error) =>
      var s := st.(status := "failed");
      Step(s, [ErrorEvent(s.status, s.data, error)], false)
    case Catchup(status, docs) =>
      var s := State(status, st.data + docs.GetOr([]));
      Step(s, Replay(s.data), false)
    case Doc(doc) =>
      Step(st, [DocumentEvent(doc)], false)
    case Other(_) =>
      Step(st, [], false)
  }

  /** The `onmessage`, `onclose` and `onerror` handlers. */
  function OnFrame(st: State, frame: Frame): (r: Step)
    ensures frame.Binary? ==> r == Step(st, [], true)
    ensures frame.CloseFrame? ==> r == HandleMessage(st, frame.reason)
    ensures frame.SocketError? ==>
              && r.state == State("failed", st.data)
              && r.events == [ErrorEvent("failed", st.data, Some("WebSocket error"))]
              && !r.clientCloses
    ensures st.data <= r.state.data
  {
    match frame
    case Text(msg) => HandleMessage(st, msg)
    case Binary => Step(st, [], true)
    case CloseFrame(reason) => HandleMessage(st, reason)
    case SocketError =>
      var s := st.(status := "failed");
      Step(s, [ErrorEvent(s.status, s.data, Some("WebSocket error"))], false)
  }

  /** Some frame of the run is a non-text frame. */
  predicate HasBinary(frames: seq<Frame>) {
    exists k :: 0 <= k < |frames| && frames[k].Binary?
  }

  /** Frames handled in arrival order; events are dispatched in the same
      order. The client calls `close()` exactly when a non-text frame
      arrived: no message, close frame or socket error makes it call it. */
  function Run(st: State, frames: seq<Frame>): (r: Step)
    ensures r.clientCloses <==> HasBinary(frames)
    decreases |frames|
  {
    if |frames| == 0 then Step(st, [], false)
    else
      var first := OnFrame(st, frames[0]);
      var rest := Run(first.state, frames[1..]);
      assert HasBinary(frames) <==> frames[0].Binary? || HasBinary(frames[1..]) by {
        if HasBinary(frames[1..]) {
          var k :| 0 <= k < |frames[1..]| && frames[1..][k].Binary?;
          assert frames[k + 1].Binary?;
        }
        if HasBinary(frames) && !frames[0].Binary? {
          var k :| 0 <= k < |frames| && frames[k].Binary?;
          assert frames[1..][k - 1].Binary?;
        }
      }
      Step(rest.state, first.events + rest.events, first.clientCloses || rest.clientCloses)
  }

  /** Property: over any sequence of frames the buffer only grows; no frame
      removes or reorders a buffered document. */
  lemma {:induction false} RunAppendOnly(st: State, frames: seq<Frame>)
    ensures st.data <= Run(st, frames).state.data
    decreases |frames|
  {
    if |frames| > 0 {
      var first := OnFrame(st, frames[0]);
      RunAppendOnly(first.state, frames[1..]);
    }
  }

  /** Handling two runs of frames back to back is handling their
      concatenation: events keep arrival order across the seam. */
  lemma {:induction false} RunConcat(st: State, a: seq<Frame>, b: seq<Frame>)
    ensures var ra := Run(st, a);
            var rb := Run(ra.state, b);
            Run(st, a + b) == Step(rb.state, ra.events + rb.events, ra.clientCloses || rb.clientCloses)
    decreases |a|
  {
    if |a| == 0 {
      assert a + b == b;
    } else {
      var first := OnFrame(st, a[0]);
      assert (a + b)[0] == a[0];
      assert (a + b)[1..] == a[1..] + b;
      RunConcat(first.state, a[1..], b);
    }
  }

  /** Property: a run of binary frames emits nothing, leaves the state alone
      and makes the client call `close()`. */
  lemma {:induction false} BinaryFramesAreSilent(st: State, n: nat)
    ensures var r := Run(st, seq(n, _ => Binary));
            r.events == [] && r.state == st && (n > 0 ==> r.clientCloses)
    decreases n
  {
    if n > 0 {
      var frames := seq(n, _ => Binary);
      assert frames[0] == Binary;
      assert frames[1..] == seq(n - 1, _ => Binary);
      BinaryFramesAreSilent(st, n - 1);
    }
  }

  /** Two frames in a row: the second is handled in the state the first left. */
  lemma RunTwo(st: State, f: Frame, g: Frame)
    ensures var r1 := OnFrame(st, f);
            var r2 := OnFrame(r1.state, g);
            Run(st, [f, g]) == Step(r2.state, r1.events + r2.events, r1.clientCloses || r2.clientCloses)
  {
    var frames := [f, g];
    assert frames[1..] == [g];
    assert frames[1..][1..] == [];
    var r1 := OnFrame(st, f);
    var r2 := OnFrame(r1.state, g);
    assert Run(r1.state, [g]) == Step(r2.state, r2.events + [], r2.clientCloses || false);
  }

  /** Property: a `catchup` with n documents followed by one `document`
      message dispatches n + 1 `document` events in that order, yet the
      buffer ends with only the n caught-up documents: `document` messages
      are not buffered. */
  lemma CatchupThenDocument(status: string, docs: seq<Document>, d: Document)
    ensures var r := Run(Initial, [Text(Catchup(status, Some(docs))), Text(Doc(d))]);
            && r.events == Replay(docs) + [DocumentEvent(d)]
            && |r.events| == |docs| + 1
            && r.state == State(status, docs)
  {
    RunTwo(Initial, Text(Catchup(status, Some(docs))), Text(Doc(d)));
    assert [] + docs == docs;
  }

  /** Property: every `catchup` replays the whole buffer, so documents held
      from an earlier catchup are dispatched again. */
  lemma CatchupReplaysHeldDocuments(status: string, d: Document, e: Document)
    ensures var r := Run(Initial, [Text(Catchup(status, Some([d]))), Text(Catchup(status, Some([e])))]);
            && r.events == [DocumentEvent(d), DocumentEvent(d), DocumentEvent(e)]
            && r.state.data == [d, e]
  {
    RunTwo(Initial, Text(Catchup(status, Some([d]))), Text(Catchup(status, Some([e]))));
    assert [] + [d] == [d];
    assert [d] + [e] == [d, e];
  }

  /** Property: a terminal status is not sticky on this channel: a
      `catchup` arriving after `done` overwrites "completed". */
  lemma TerminalStatusCanBeOverwritten(status: string)
    ensures Run(Initial, [Text(Done), Text(Catchup(status, None))]).state.status == status
  {
    RunTwo(Initial, Text(Done), Text(Catchup(status, None)));
  }

  /** Property: the status only changes on `done`, `error`, `catchup` or a
      transport error; the statuses `done` and `error` set are the terminal
      ones. */
  lemma {:induction false} StatusSources(st: State, frame: Frame)
    ensures var r := OnFrame(st, frame);
            r.state.status != st.status ==>
              || r.state.status == "completed"
              || r.state.status == "failed"
              || (frame.Text? && frame.msg.Catchup?)
              || (frame.CloseFrame? && frame.reason.Catchup?)
  {
    match frame
    case Text(m) =>
    case CloseFrame(m) =>
    case Binary =>
    case SocketError =>
  }
}
